=== FILE: README.md ===
# anduflow core, modelled in Dafny

anduflow is an ETL toolkit. This project models four parts of it:

- **The extraction contract** (the `Extractor` trait). Its defaulted members are modelled: an
  adapter is not incremental unless it says so, reports no checkpoint and no schema, and its
  default `set_checkpoint` accepts a checkpoint only when the adapter claims incremental support.
  Even then it discards the checkpoint.
- **The REST adapter** (`RestExtractor`). This is a request template built fluently:
  - `new` joins the base URL and the endpoint with exactly one `/`;
  - the `with_*` builders add headers, query pairs and a body;
  - `with_method` rebuilds the template for a new verb and re-applies the headers;
  - `url` reads the target back.

  Its retrieval members turn the outcome of one HTTP exchange into the contract's results and
  errors. A blank body is an error that names the status. A body that does not decode is an
  error that carries a snippet of at most 1024 characters. The HTTP status is never checked.
- **The execution record** (`LogStore`). An operation's status, timing, progress and throughput,
  updated in place. It is a class whose fields are the record's. Each method is proved against
  a function on the record value. The invariant it keeps is proved: a start time is always
  present; a terminal status carries its completion and elapsed times; a failure carries its
  message; progress counters and percentage come together and agree.
- **The API-to-columnar converter**. It covers:
  - locating the record array in a response (`results`, then a bare array, then `data`);
  - the per-field type statistics;
  - the choice of a column type (largest count, the later type on ties);
  - schema inference, which is proved equal to a declarative schema over all observations;
  - the per-record coercions that fill the Boolean, Int64, UInt64 and Utf8 columns.

Modules:

- `Wrappers`: Option and Result.
- `Ints`: Rust's i64/u64/u32 and the casts between them.
- `Strings`: decimal text, `parse`, trimming and ASCII lower-casing.
- `JsonValues`: serde_json's `Value` and `Number`, lookup and compact rendering.
- `Extract`: the trait's defaults.
- `Rest`: the REST adapter.
- `Logger`: the execution record.
- `ApiToArrow`: the converter.

Inputs:

- The clock, the id generator, the `HOSTNAME` variable, the process id and the HTTP exchange are
  parameters of the operations that use them.
- A JSON decoder into the caller's type is a function parameter.

## Model

| member | source | states |
|---|---|---|
| `Extract.SupportsIncremental` | anduflow-core/src/extract/mod.rs:202-204 | false unless the adapter overrides it, and then the override's answer |
| `Extract.CurrentCheckpoint` | anduflow-core/src/extract/mod.rs:215-217 | no checkpoint unless the adapter overrides it |
| `Extract.Schema` | anduflow-core/src/extract/mod.rs:166-168 | no schema unless the adapter overrides it |
| `Extract.SetCheckpoint` | anduflow-core/src/extract/mod.rs:232-240 | succeeds exactly when the adapter's `supports_incremental` says yes; otherwise fails with "Source does not support incremental"; the adapter is unchanged either way |
| `Extract.Extract` | anduflow-core/src/extract/mod.rs:108-110 | `extract` gives exactly what `extract_json` gives |
| `Extract.SetCheckpointDiscardsToken` | anduflow-core/src/extract/mod.rs:232 | the default never stores the token: the checkpoint reported afterwards is unchanged, and the token passed does not affect the outcome |
| `Extract.DefaultsNeverIncremental` | anduflow-core/src/extract/mod.rs:166-240 | an adapter keeping every default: not incremental, no checkpoint, no schema, every `set_checkpoint` refused, `extract` = `extract_json` |
| `Extract.OptInAlone` | anduflow-core/src/extract/mod.rs:233-234 | overriding `supports_incremental` to true alone makes the default `set_checkpoint` succeed, while `checkpoint` still reports none |
| `Rest.ParseMethod` | anduflow-core/src/extract/rest_extractor.rs:213 | parsing fails exactly on the empty string or one with a character outside the HTTP token set; a parsed method's name is the text parsed, and it is an extension exactly when the text is not one of the nine standard names |
| `Rest.ParseMethodName` | anduflow-core/src/extract/rest_extractor.rs:213 | each of the nine standard methods parses back from its own name |
| `Rest.TrimEndOfSlashes` | anduflow-core/src/extract/rest_extractor.rs:91 | trimming trailing slashes off a base that ends in any number of them gives the base |
| `Rest.TrimStartOfSlashes` | anduflow-core/src/extract/rest_extractor.rs:92 | trimming leading slashes off an endpoint that starts with any number of them gives the endpoint |
| `Rest.JoinUrlOneSeparator` | anduflow-core/src/extract/rest_extractor.rs:91-93 | however many slashes end the base and start the endpoint, the joined URL has exactly one `/` between them |
| `Rest.New` | anduflow-core/src/extract/rest_extractor.rs:90-99 | a GET to the joined URL with no query, no headers and no body |
| `Rest.AddHeader` | anduflow-core/src/extract/rest_extractor.rs:220 | reqwest's `header`: the header is appended after the existing ones, and nothing else in the template changes |
| `Rest.WithHeader` | anduflow-core/src/extract/rest_extractor.rs:149-152 | one header is appended, with the name lower-cased and the value as given; nothing else changes |
| `Rest.WithBasicAuth` | anduflow-core/src/extract/rest_extractor.rs:122-125 | one `authorization` header carrying the user and password is appended; nothing else changes |
| `Rest.WithAuthToken` | anduflow-core/src/extract/rest_extractor.rs:201-204 | one `authorization: Bearer <token>` header is appended; nothing else changes |
| `Rest.WithQueryParam` | anduflow-core/src/extract/rest_extractor.rs:175-178 | the pairs are appended to the query; address, verb, headers and body are unchanged |
| `Rest.WithBody` | anduflow-core/src/extract/rest_extractor.rs:226-229 | the body is replaced, and nothing else changes |
| `Rest.WithJsonBody` | anduflow-core/src/extract/rest_extractor.rs:232-235 | the body is the value's JSON text; a `content-type: application/json` header is added exactly when none is present; verb and URL are unchanged |
| `Rest.UrlOf` | anduflow-core/src/extract/rest_extractor.rs:258-260 | the URL starts with the joined address, and is exactly that address when no query was added |
| `Rest.WithMethod` | anduflow-core/src/extract/rest_extractor.rs:209-223 | the verb is the parsed one, or GET when the text does not parse; the whole URL, query pairs included, and every header, in order, are kept; the body is dropped |
| `Rest.Snippet` | anduflow-core/src/extract/rest_extractor.rs:311 | the first min(n, 1024) characters of the body |
| `Rest.Prepare` | anduflow-core/src/extract/rest_extractor.rs:289-293 | for a template whose URL and headers parse, cloning succeeds exactly when the body is not a stream, and otherwise fails with `RequestCloneFailed` |
| `Rest.Ping` | anduflow-core/src/extract/rest_extractor.rs:265-282 | succeeds exactly when the template clones and a response arrives, whatever its status; otherwise it fails with the clone or transport error |
| `Rest.ExtractJson` | anduflow-core/src/extract/rest_extractor.rs:288-318 | clone error, transport error, blank-body error naming the status, or the decoder's result, whose failure carries the decoder's message and the body snippet |
| `Rest.ExtractText` | anduflow-core/src/extract/rest_extractor.rs:320-328 | succeeds exactly when cloning and the exchange succeed, with the body text as it came; otherwise `RequestCloneFailed` or the transport error |
| `Rest.ExtractBytes` | anduflow-core/src/extract/rest_extractor.rs:330-338 | succeeds exactly when cloning and the exchange succeed, with the body bytes as they came; otherwise `RequestCloneFailed` or the transport error |
| `Rest.ExtractRaw` | anduflow-core/src/extract/rest_extractor.rs:340-348 | the same result as `extract_bytes` on every template and exchange: the body bytes exactly when cloning and the exchange succeed, otherwise the same error |
| `Rest.Close` | anduflow-core/src/extract/rest_extractor.rs:283-286 | always succeeds |
| `Rest.SourceName` | anduflow-core/src/extract/rest_extractor.rs:349-351 | always "RestExtractor" |
| `Rest.SupportsIncremental` | anduflow-core/src/extract/rest_extractor.rs:355-357 | never incremental |
| `Rest.CurrentCheckpoint` | anduflow-core/src/extract/rest_extractor.rs:358-360 | never a checkpoint |
| `Rest.SetCheckpoint` | anduflow-core/src/extract/rest_extractor.rs:361-365 | always refused with "Source does not support incremental", template untouched |
| `Rest.RestAgreesWithDefaults` | anduflow-core/src/extract/rest_extractor.rs:355-365 | seen through the contract, the REST adapter's overrides behave like the contract's defaults: not incremental, no checkpoint, same refusal, `extract` = `extract_json`, no schema |
| `Rest.StatusIgnoredForNonBlankBody` | etl-core/tests/rest_extractor_tests.rs:167-187 | with a non-blank body, `extract_json` gives the same result for a 500 as for a 200 |
| `Rest.EmptyBodyMessageNamesStatus` | anduflow-core/src/extract/rest_extractor.rs:299-303 | the empty-body error text contains the numeric status code |
| `Rest.ParseFailureMessageBounded` | anduflow-core/src/extract/rest_extractor.rs:310-316 | the parse-failure text contains the snippet (the whole body when it is at most 1024 characters) and is bounded by 1024 characters plus the fixed text and the decoder's message |
| `Rest.NewExampleWithSlashes` | anduflow-core/src/extract/rest_extractor.rs:76-77 | a base ending in `/` and an endpoint starting with `/` join to `https://api.example.com/data` |
| `Rest.NewExampleBare` | etl-core/tests/rest_extractor_tests.rs:9-10 | `new("https://api.example.com", "data").url()` is `https://api.example.com/data` |
| `Rest.WithMethodExample` | etl-core/tests/rest_extractor_tests.rs:44-49 | `new("https://api.example.com", "data").with_method("POST").url()` is `https://api.example.com/data` |
| `Rest.PostJsonExample` | etl-core/tests/rest_extractor_tests.rs:154-158 | `new(base, "api/data").with_method("POST").with_json_body(v)` is a POST to the joined address, with the JSON content type and the JSON text as body |
| `Rest.HeaderBuildersKeepUrl` | etl-core/tests/rest_extractor_tests.rs:22-35 | adding a header, a bearer token, basic credentials or a JSON body leaves `url()` unchanged |
| `Strings.NatToDecimal` | etl-core/src/main.rs:271 | decimal text of a natural: non-empty, digits only, no leading zero |
| `Strings.IntToDecimal` | etl-core/src/main.rs:271 | a leading minus exactly for negative numbers |
| `Strings.IntToDecimalDigits` | etl-core/src/main.rs:271 | after the sign, the text of an integer is non-empty canonical decimal digits (no leading zero) whose value is the magnitude |
| `Strings.DecimalRoundTrip` | etl-core/src/main.rs:183 | reading the decimal text of n gives n |
| `Strings.ParseI64` | etl-core/src/main.rs:183-186 | a parsed i64 comes from text starting with a digit or a sign |
| `Strings.ParseU64` | etl-core/src/main.rs:217-220 | a parsed u64 never comes from text starting with `-` |
| `Strings.ParseI64Exact` | etl-core/src/main.rs:183-186 | `parse::<i64>` succeeds exactly on an optional sign then one or more ASCII digits whose signed value is in the i64 range, giving that value |
| `Strings.ParseU64Exact` | etl-core/src/main.rs:217-220 | `parse::<u64>` succeeds exactly on an optional `+` then one or more ASCII digits whose value fits a u64, giving that value; anything else gives null |
| `Strings.U64RoundTrip` | etl-core/src/main.rs:217 | `parse::<u64>` of a u64's decimal text gives the number back |
| `Strings.I64RoundTrip` | etl-core/src/main.rs:183 | `parse::<i64>` of an i64's decimal text gives the number back, negatives included |
| `Strings.TrimEndMatches` | anduflow-core/src/extract/rest_extractor.rs:91 | the result is no longer than the input, does not end in the character, and every dropped character was that character |
| `Strings.TrimStartMatches` | anduflow-core/src/extract/rest_extractor.rs:92 | the result is no longer than the input, does not start with the character, and every dropped character was that character |
| `Strings.TrimEndMatchesIsPrefix` | anduflow-core/src/extract/rest_extractor.rs:91 | what is kept is a prefix of the base |
| `Strings.TrimStartMatchesIsSuffix` | anduflow-core/src/extract/rest_extractor.rs:92 | what is kept is a suffix of the endpoint |
| `Strings.TrimStart` | anduflow-core/src/extract/rest_extractor.rs:299 | a suffix that does not start with whitespace, all dropped characters being whitespace |
| `Strings.TrimEnd` | anduflow-core/src/extract/rest_extractor.rs:299 | a prefix that does not end with whitespace, all dropped characters being whitespace |
| `Strings.TrimEmptyIffBlank` | anduflow-core/src/extract/rest_extractor.rs:299-304 | `text.trim().is_empty()` holds exactly when every character is whitespace |
| `Ints.U64AsI64` | etl-core/src/main.rs:175 | `u as i64` is u or u - 2^64, negative exactly when u exceeds i64::MAX |
| `Ints.I64AsUsize` | anduflow-utils/src/logger/store.rs:120 | `as usize` keeps non-negative values and maps negative ones to value + 2^64 |
| `Ints.SaturatingTruncate` | etl-core/src/main.rs:177 | `f as i64` truncates toward zero inside the i64 range and saturates at its bounds |
| `JsonValues.AsI64` | etl-core/src/main.rs:148 | `as_i64` gives a value exactly when `is_i64` holds, and that value is the number itself: every negative integer, and every non-negative one up to i64::MAX |
| `JsonValues.AsU64` | etl-core/src/main.rs:204 | `as_u64` gives a value exactly when `is_u64` holds, and that value is the non-negative integer itself |
| `JsonValues.Lookup` | etl-core/src/main.rs:138 | a value is found exactly when some member has the key, and it is stored under that key |
| `JsonValues.UnescapeHexEscape` | etl-core/src/main.rs:271 | a control character written as `\u00XX` reads back as itself |
| `JsonValues.UnescapeEscapeChar` | etl-core/src/main.rs:271 | every escaped character reads back as itself |
| `JsonValues.UnescapeEscape` | etl-core/src/main.rs:271 | a JSON reader gets an escaped string back unchanged |
| `JsonValues.RenderStrRoundTrip` | etl-core/src/main.rs:269-271 | the JSON text of a string value reads back as the same string |
| `Logger.ElapsedMs` | anduflow-utils/src/logger/store.rs:117-121 | when completion is not before the start, the stored elapsed time is the exact difference in milliseconds |
| `Logger.CreatedIsValid` | anduflow-utils/src/logger/store.rs:60-84 | a new record is Started, has its start stamped and its identity set, has nothing else measured, and satisfies the record invariant |
| `Logger.InProgressKeepsValid` | anduflow-utils/src/logger/store.rs:86-89 | `mark_in_progress` keeps the invariant and the record's identity |
| `Logger.CompletedKeepsValid` | anduflow-utils/src/logger/store.rs:91-95 | `mark_completed` keeps the invariant and the record's identity |
| `Logger.FailedKeepsValid` | anduflow-utils/src/logger/store.rs:97-102 | `mark_failed` keeps the invariant and the record's identity |
| `Logger.ProgressKeepsValid` | anduflow-utils/src/logger/store.rs:104-115 | `update_progress` keeps the invariant and the record's identity |
| `Logger.TaggedKeepsValid` | anduflow-utils/src/logger/store.rs:124-126 | `add_tag` keeps the invariant and the record's identity |
| `Logger.InProgressThenCompleted` | anduflow-utils/src/logger/store.rs:86-95 | marking in progress at t1 and then completed at t2 ≥ t1 gives Completed, completion t2 and elapsed t2 - t1, whatever came before |
| `Logger.LaterTerminalMarkWins` | anduflow-utils/src/logger/store.rs:91-102 | a second terminal mark overwrites status, completion and elapsed time; a failure message survives a later completion |
| `Logger.OnlyFailureWritesError` | anduflow-utils/src/logger/store.rs:97-99 | no operation other than `mark_failed` changes the error message |
| `Logger.PercentageScales` | anduflow-utils/src/logger/store.rs:107 | percentage × max(total, 1) = processed × 100; 5 of 10 is 50, 0 of 0 is 0, all of a positive total is 100 |
| `Logger.RateHasOneSecondFloor` | anduflow-utils/src/logger/store.rs:110-113 | under two seconds the rate is the processed count itself; otherwise rate × whole seconds = processed |
| `Logger.LogStore.constructor` | anduflow-utils/src/logger/store.rs:60-84 | the fields are the created record, and the invariant holds |
| `Logger.LogStore.MarkInProgress` | anduflow-utils/src/logger/store.rs:86-89 | the new fields are the in-progress record; the invariant is kept |
| `Logger.LogStore.MarkCompleted` | anduflow-utils/src/logger/store.rs:91-95 | the new fields are the completed record with elapsed time recomputed; the invariant is kept |
| `Logger.LogStore.MarkFailed` | anduflow-utils/src/logger/store.rs:97-102 | the new fields are the failed record with message and elapsed time; the invariant is kept |
| `Logger.LogStore.UpdateProgress` | anduflow-utils/src/logger/store.rs:104-115 | counters, percentage and (when started) rate are the progress-updated record; the invariant is kept |
| `Logger.LogStore.SetCounts` | anduflow-utils/src/logger/store.rs:105-107 | the three progress fields are written together, and no other field changes |
| `Logger.LogStore.CalculateElapsedTime` | anduflow-utils/src/logger/store.rs:117-122 | elapsed time is recomputed exactly when both timestamps are present, and only that field changes |
| `Logger.LogStore.AddTag` | anduflow-utils/src/logger/store.rs:124-126 | the tag is appended; the invariant is kept |
| `Logger.LogStore.SetMetadata` | anduflow-utils/src/logger/store.rs:128-130 | only the metadata changes; the invariant is kept |
| `Logger.LogStore.SetSourceDestination` | anduflow-utils/src/logger/store.rs:132-135 | only source and destination change; the invariant is kept |
| `ApiToArrow.ExtractRecords` | etl-core/src/main.rs:41-62 | fails, with its fixed message, exactly when neither `results`, nor the response, nor `data` is an array; otherwise the items of the first of these three that is an array |
| `ApiToArrow.ExtractRecordsPriority` | etl-core/src/main.rs:43-59 | a bare array is taken whole; `results` beats `data`; a non-array `results` falls through to `data`; an empty object fails |
| `ApiToArrow.Kind` | etl-core/src/main.rs:305-322 | the counter a value raises: null, bool, i64-representable number, other u64, float, or string/array/object, each exactly characterised |
| `ApiToArrow.Update` | etl-core/src/main.rs:305-322 | the total goes up by one, the value's own counter goes up by one, and the counters stay balanced |
| `ApiToArrow.UpdateCounts` | etl-core/src/main.rs:305-322 | exactly one category counter rises: the one for the value's kind |
| `ApiToArrow.TallyFromCounts` | etl-core/src/main.rs:90-95 | updating with each of a run of values adds their number to the total and each kind's occurrences to its counter, and keeps the counters balanced |
| `ApiToArrow.TallyCounts` | etl-core/src/main.rs:90-95 | fresh counters fed a run of values total its length, are balanced, and count each kind's occurrences |
| `ApiToArrow.TallyFromAppend` | etl-core/src/main.rs:90-95 | tallying two runs one after the other is tallying their concatenation |
| `ApiToArrow.OccurrencesPositive` | etl-core/src/main.rs:305-322 | a kind's count is positive exactly when some observation is of that kind |
| `ApiToArrow.LastMaxIndex` | etl-core/src/main.rs:339-342 | `max_by_key` picks a maximal count, and no later entry equals it |
| `ApiToArrow.CandidatesByRank` | etl-core/src/main.rs:331-337 | each type's count sits at the type's position in the scan order Float64, Int64, UInt64, Boolean, Utf8 |
| `ApiToArrow.DetermineType` | etl-core/src/main.rs:324-343 | Utf8 when nothing non-null was seen; otherwise a type with the largest count, and every type later in scan order has a strictly smaller count |
| `ApiToArrow.ChosenTypeWasObserved` | etl-core/src/main.rs:324-343 | with balanced counters and a non-null observation, the chosen type was observed at least once |
| `ApiToArrow.BoolStringTieGivesUtf8` | etl-core/src/main.rs:335-340 | one bool and one string give Utf8 |
| `ApiToArrow.NumberTiesGoLater` | etl-core/src/main.rs:332-340 | a float/int tie gives Int64 and an int/uint tie gives UInt64 |
| `ApiToArrow.RecordMembersSpec` | etl-core/src/main.rs:92-95 | after one object's members, each key's entry is its old entry (fresh if missing) updated with the values under that key, and the map holds exactly the old keys and the object's keys |
| `ApiToArrow.StatsOfSpec` | etl-core/src/main.rs:90-97 | after the loop, each key's counters are the tally of every value observed under it |
| `ApiToArrow.StatsOfKeys` | etl-core/src/main.rs:90-97 | after the loop, the map has an entry for exactly the keys seen in object records |
| `ApiToArrow.SchemaFromStats` | etl-core/src/main.rs:99-105 | one field per entry of the loop's map is the declarative schema |
| `ApiToArrow.InferSchema` | etl-core/src/main.rs:86-108 | the inferred schema has one field per key seen in any object record, typed by `determine_type` over all values under the key and nullable when a null was seen or nothing was counted |
| `ApiToArrow.ValuesUnderKeys` | etl-core/src/main.rs:92 | an object has values under a key exactly when the key is among its members' keys |
| `ApiToArrow.KeysSeenObserved` | etl-core/src/main.rs:90-93 | a key was seen exactly when some value was observed under it |
| `ApiToArrow.SchemaEntry` | etl-core/src/main.rs:99-105 | a schema field describes a non-empty list of observations |
| `ApiToArrow.NullableIffNullSeen` | etl-core/src/main.rs:103 | a field is nullable exactly when a null was observed under its key |
| `ApiToArrow.OnlyBoolsCounted` | etl-core/src/main.rs:324-343 | counters that saw only bools give a non-nullable Boolean field |
| `ApiToArrow.AllBoolsGiveBoolean` | etl-core/src/main.rs:86-108 | a key whose every observation is a bool becomes a non-nullable Boolean field |
| `ApiToArrow.AllOfKind` | etl-core/src/main.rs:305-322 | values all of one kind are counted only under that kind |
| `ApiToArrow.JsonToArrow` | etl-core/src/main.rs:65-71 | an empty record list fails with "Empty JSON array" exactly; otherwise the schema is the inferred one |
| `ApiToArrow.BoolText` | etl-core/src/main.rs:141-145 | true exactly for case-insensitive "true" or "1", false exactly for case-insensitive "false" or "0" |
| `ApiToArrow.BuildBooleanArray` | etl-core/src/main.rs:134-164 | one cell per record, each the Boolean coercion of that record's value under the name (a bool kept, text by `BoolText`, a number true when non-zero, anything else null; see the coercion lemmas below) |
| `ApiToArrow.BuildInt64Array` | etl-core/src/main.rs:166-196 | one cell per record, each the Int64 coercion of that record's value under the name (an i64 kept, a large u64 wrapped, a float truncated, text parsed, anything else null; see the coercion lemmas below) |
| `ApiToArrow.BuildUInt64Array` | etl-core/src/main.rs:198-230 | one cell per record, each the UInt64 coercion of that record's value under the name (a u64 kept, a negative number or a float null, text parsed, anything else null; see the coercion lemmas below) |
| `ApiToArrow.BuildStringArray` | etl-core/src/main.rs:264-278 | one cell per record, each the Utf8 coercion of that record's value under the name |
| `ApiToArrow.NumberCells` | etl-core/src/main.rs:171-215 | a number is kept as the same integer by Int64 (any i64) and UInt64 (any u64); a float is truncated with saturation by Int64 and null in UInt64; a negative integer is null in UInt64 |
| `ApiToArrow.NonNumberCells` | etl-core/src/main.rs:139-223 | a bool is kept by a Boolean column and null in Int64 and UInt64 columns; an array or object is null in all three |
| `ApiToArrow.AbsentGivesNull` | etl-core/src/main.rs:156-160 | a non-object record, a missing key or a null gives a null slot in every column |
| `ApiToArrow.AsciiLowerIdempotent` | etl-core/src/main.rs:141 | lower-casing twice is lower-casing once |
| `ApiToArrow.BoolTextIgnoresCase` | etl-core/src/main.rs:141 | boolean text is read without regard to case |
| `ApiToArrow.BoolTextExamples` | etl-core/src/main.rs:141-144 | "TRUE" is true, "False" is false, "yes" is null |
| `ApiToArrow.StringMemberCells` | etl-core/src/main.rs:140-146 | a string member is read by each column's own text rule, and a Utf8 column keeps it unquoted |
| `ApiToArrow.BoolFromNumbers` | etl-core/src/main.rs:147-157 | a number is true exactly when non-zero (u64 beyond i64 and floats included), and an array is null |
| `ApiToArrow.Int64TextRoundTrip` | etl-core/src/main.rs:182-186 | an i64's decimal text reads back as the same value in an Int64 column |
| `ApiToArrow.UInt64TextRoundTrip` | etl-core/src/main.rs:216-220 | a u64's decimal text reads back as the same value in a UInt64 column |
| `ApiToArrow.NegativeNeverUnsigned` | etl-core/src/main.rs:206-211 | a negative number, as a number or as text, is null in a UInt64 column |
| `ApiToArrow.LargeUnsignedWraps` | etl-core/src/main.rs:174-175 | a u64 above i64::MAX wraps to value - 2^64 in an Int64 column |
| `ApiToArrow.OtherValuesRendered` | etl-core/src/main.rs:271 | every non-null non-string value enters a Utf8 column as its compact JSON text |

## Left out

- HTTP execution, the client handle and `fetch_json_data`/`api_to_arrow`: I/O. The outcome of one exchange is the `Exchange` parameter. A decoder into the caller's type is a function parameter.
- `build_float64_array`, `json_to_arrays`, `create_array_for_field` and `RecordBatch` assembly are not modelled. Float64 cells need f64 rounding and a float parser for `s.parse::<f64>()`, which the model does not have. So `JsonToArrow` stops at the schema. Its `Ok` is not the source's outcome in every case. A key that is missing from some records but never null is marked non-nullable, while the builders leave null slots for it, so `RecordBatch::try_new` would reject that batch.
- f64 arithmetic: percentages, rates and float values are exact reals. Rounding is not modelled. A float is carried as its exact value and its shortest decimal text, which is what `to_string` writes.
- Counters are unbounded naturals. `usize` overflow of the statistics and progress counters is not modelled.
- Timestamps are whole milliseconds in a range that covers every instant chrono represents. Sub-millisecond precision and chrono's own limits are not modelled. Truncating nanoseconds to milliseconds and then to seconds gives the same whole seconds as the library.
- The schema is a map keyed by field name. The order of its fields, which comes from HashMap iteration, is not modelled.
- A JSON object is its member list. serde_json guarantees unique keys. The model does not require them, and for unique keys `get` and the statistics agree with the source.
- `to_lowercase` is modelled as ASCII lower-casing. The two agree on whether a string reads as "true", "false", "1" or "0": no non-ASCII character lower-cases to one of those letters.
- reqwest internals are not modelled: URL parsing and normalisation, percent-encoding of query pairs, base64 in `basic_auth`, and header name/value validation. Headers keep insertion order. HeaderMap's grouping of equal names is not modelled.
- `with_header` documents that an existing header is overwritten. The code calls reqwest's `header`, which appends. The model appends, following the code.
- `with_method` documents that query pairs set earlier may be lost. The code rebuilds the request on the built URL, and that URL still holds them. The model keeps them, following the code.
- A body that does not decode fails with the free-text `ExtractOpsError`, as the code does. There is no separate decode error kind.
- The `unwrap`s in `with_method` and `url` are a precondition that the template can be cloned, meaning its body is not a stream.
- Rest.Prepare: templates are taken to hold a URL and headers that parse. In the source, a builder that failed to parse the URL given to `new` (e.g. "not a url") or a header given to `with_header` (e.g. the name "bad name") cannot be cloned either. `ping` and every `extract_*` then fail with `RequestCloneFailed`, and `url` and `with_method` panic. The model has no such broken state, because URL parsing and header validation belong to reqwest and are not modelled.
- The `&mut LogStore` logger parameter of `extract` is not modelled: the default body never uses it.
- `metadata` on the REST adapter is `unimplemented!()` and is not modelled.
- `create_table_sql`, `ensure_table_exists` and `ensure_etl_logs_table_exists` are SQL I/O and are not modelled.
- `Uuid::new_v4`, `Utc::now`, `HOSTNAME` and the process id are parameters of the operations that read them.
- The record invariant is proved for every LogStore built by `new` and changed by its methods. A LogStore built by `Deserialize` may violate it and is not covered.
- The etl-core copies of the REST adapter and the trait (etl-core/src/extract/) are earlier drafts of the same code and are not part of this model.

=== FILE: api_to_arrow.dfy ===
/**
 * The non-I/O core of the API-to-columnar converter: locating the record array in a response,
 * per-field type statistics, schema inference, and the per-record coercions that fill each
 * typed column. A column is a sequence of optional cells (None is a null slot).
 */
module ApiToArrow {
  import opened Wrappers
  import opened Ints
  import opened Strings
  import opened JsonValues

  const NO_RECORDS := "Could not extract records from API response"
  const EMPTY_INPUT := "Empty JSON array"

  // ---------------------------------------------------------------- locating records

  predicate ArrayAt(v: Value, key: string) {
    var m := Get(v, key); m.Some? && m.value.Arr?
  }

  /**
   * The records of a response: the "results" member if it is an array, else the response
   * itself if it is an array, else the "data" member if it is an array.
   */
  function ExtractRecords(v: Value): (r: Result<seq<Value>, string>)
    ensures r.Err? <==> !ArrayAt(v, "results") && !v.Arr? && !ArrayAt(v, "data")
    ensures r.Err? ==> r.error == NO_RECORDS
    ensures ArrayAt(v, "results") ==> r == Ok(Get(v, "results").value.items)
    ensures !ArrayAt(v, "results") && v.Arr? ==> r == Ok(v.items)
    ensures !ArrayAt(v, "results") && !v.Arr? && ArrayAt(v, "data") ==> r == Ok(Get(v, "data").value.items)
  {
    var results := Get(v, "results");
    if results.Some? && results.value.Arr? then Ok(results.value.items)
    else if v.Arr? then Ok(v.items)
    else
      var data := Get(v, "data");
      if data.Some? && data.value.Arr? then Ok(data.value.items)
      else Err(NO_RECORDS)
  }

  /** A bare array is taken whole, and in an object "results" wins over "data". */
  lemma ExtractRecordsPriority(items: seq<Value>, results: seq<Value>, data: seq<Value>)
    ensures ExtractRecords(Arr(items)) == Ok(items)
    ensures ExtractRecords(Obj([("data", Arr(data)), ("results", Arr(results))])) == Ok(results)
    ensures ExtractRecords(Obj([("results", Null), ("data", Arr(data))])) == Ok(data)
    ensures ExtractRecords(Obj([("results", Arr(results))])) == Ok(results)
    ensures ExtractRecords(Obj([])).Err?
  {
    var m := [("data", Arr(data)), ("results", Arr(results))];
    assert m[1].0 == "results";
    assert Lookup(m[1..], "results") == Some(Arr(results));
    assert "data" != "results";
  }

  // ---------------------------------------------------------------- field statistics

  datatype ColumnType = Boolean | Int64 | UInt64 | Float64 | Utf8

  /** Position in the order `determine_type` scans: Float64, Int64, UInt64, Boolean, Utf8. */
  function Rank(t: ColumnType): nat {
    match t
    case Float64 => 0
    case Int64 => 1
    case UInt64 => 2
    case Boolean => 3
    case Utf8 => 4
  }

  /**
   * The counter a value increments: None for null, otherwise the column type it votes for.
   * An i64-representable number votes Int64, any other u64 UInt64, the rest Float64; strings,
   * arrays and objects vote Utf8.
   */
  function Kind(v: Value): (k: Option<ColumnType>)
    ensures k.None? <==> v.Null?
    ensures k == Some(Boolean) <==> v.Bool?
    ensures k == Some(Int64) <==> v.Num? && IsI64(v.n)
    ensures k == Some(UInt64) <==> v.Num? && !IsI64(v.n) && IsU64(v.n)
    ensures k == Some(Float64) <==> v.Num? && v.n.Float?
    ensures k == Some(Utf8) <==> v.Str? || v.Arr? || v.Obj?
  {
    match v
    case Null => None
    case Bool(_) => Some(Boolean)
    case Num(n) => if IsI64(n) then Some(Int64) else if IsU64(n) then Some(UInt64) else Some(Float64)
    case Str(_) => Some(Utf8)
    case Arr(_) => Some(Utf8)
    case Obj(_) => Some(Utf8)
  }

  datatype FieldStats = FieldStats(boolCount: nat, intCount: nat, uintCount: nat, floatCount: nat,
                                   stringCount: nat, nullCount: nat, totalCount: nat)

  const NEW_STATS := FieldStats(0, 0, 0, 0, 0, 0, 0)

  /** The counter for a kind of observation. */
  function CountOf(s: FieldStats, k: Option<ColumnType>): nat {
    match k
    case None => s.nullCount
    case Some(Boolean) => s.boolCount
    case Some(Int64) => s.intCount
    case Some(UInt64) => s.uintCount
    case Some(Float64) => s.floatCount
    case Some(Utf8) => s.stringCount
  }

  /** The total is the sum of the six category counters. */
  predicate Balanced(s: FieldStats) {
    s.totalCount == s.nullCount + s.boolCount + s.intCount + s.uintCount + s.floatCount + s.stringCount
  }

  /** `FieldStats::update`: the total goes up by one and the counters stay balanced. */
  function Update(s: FieldStats, v: Value): (r: FieldStats)
    ensures r.totalCount == s.totalCount + 1
    ensures CountOf(r, Kind(v)) == CountOf(s, Kind(v)) + 1
    ensures Balanced(s) ==> Balanced(r)
  {
    var s := s.(totalCount := s.totalCount + 1);
    match Kind(v)
    case None => s.(nullCount := s.nullCount + 1)
    case Some(Boolean) => s.(boolCount := s.boolCount + 1)
    case Some(Int64) => s.(intCount := s.intCount + 1)
    case Some(UInt64) => s.(uintCount := s.uintCount + 1)
    case Some(Float64) => s.(floatCount := s.floatCount + 1)
    case Some(Utf8) => s.(stringCount := s.stringCount + 1)
  }

  /** `update` raises exactly one category counter: the one for the value's kind. */
  lemma UpdateCounts(s: FieldStats, v: Value)
    ensures forall k :: CountOf(Update(s, v), k) == CountOf(s, k) + (if k == Kind(v) then 1 else 0)
  {
  }

  /** How many of `vs` are of kind `k`. */
  function Occurrences(vs: seq<Value>, k: Option<ColumnType>): (n: nat)
    ensures n <= |vs|
  {
    if vs == [] then 0
    else Occurrences(vs[..|vs| - 1], k) + (if Kind(vs[|vs| - 1]) == k then 1 else 0)
  }

  /** `update` applied to each of `vs` in turn. */
  function TallyFrom(s: FieldStats, vs: seq<Value>): FieldStats {
    if vs == [] then s else Update(TallyFrom(s, vs[..|vs| - 1]), vs[|vs| - 1])
  }

  /** The statistics of `vs`, from fresh counters. */
  function Tally(vs: seq<Value>): FieldStats {
    TallyFrom(NEW_STATS, vs)
  }

  /** Tallying adds one to the total per value and counts each value under its own kind. */
  lemma {:induction false} TallyFromCounts(s: FieldStats, vs: seq<Value>)
    ensures TallyFrom(s, vs).totalCount == s.totalCount + |vs|
    ensures forall k :: CountOf(TallyFrom(s, vs), k) == CountOf(s, k) + Occurrences(vs, k)
    ensures Balanced(s) ==> Balanced(TallyFrom(s, vs))
    decreases |vs|
  {
    if vs != [] {
      TallyFromCounts(s, vs[..|vs| - 1]);
      UpdateCounts(TallyFrom(s, vs[..|vs| - 1]), vs[|vs| - 1]);
    }
  }

  /** The counters of `vs` are balanced, total `|vs|`, and count each kind's occurrences. */
  lemma {:induction false} TallyCounts(vs: seq<Value>)
    ensures Tally(vs).totalCount == |vs| && Balanced(Tally(vs))
    ensures forall k :: CountOf(Tally(vs), k) == Occurrences(vs, k)
  {
    TallyFromCounts(NEW_STATS, vs);
    forall k ensures CountOf(Tally(vs), k) == Occurrences(vs, k) {
      assert CountOf(NEW_STATS, k) == 0;
    }
  }

  lemma {:induction false} TallyFromAppend(s: FieldStats, a: seq<Value>, b: seq<Value>)
    ensures TallyFrom(TallyFrom(s, a), b) == TallyFrom(s, a + b)
    decreases |b|
  {
    if b != [] {
      TallyFromAppend(s, a, b[..|b| - 1]);
      assert (a + b)[..|a + b| - 1] == a + b[..|b| - 1];
    } else {
      assert a + b == a;
    }
  }

  /** Some observation is of kind `k` exactly when the count for `k` is positive. */
  lemma {:induction false} OccurrencesPositive(vs: seq<Value>, k: Option<ColumnType>)
    ensures Occurrences(vs, k) > 0 <==> exists i :: 0 <= i < |vs| && Kind(vs[i]) == k
  {
    if vs != [] {
      var init := vs[..|vs| - 1];
      OccurrencesPositive(init, k);
      if Occurrences(init, k) > 0 {
        var i :| 0 <= i < |init| && Kind(init[i]) == k;
        assert vs[i] == init[i];
      }
      if exists i :: 0 <= i < |vs| && Kind(vs[i]) == k {
        var i :| 0 <= i < |vs| && Kind(vs[i]) == k;
        if i < |init| {
          assert init[i] == vs[i];
        }
      }
    }
  }

  // ---------------------------------------------------------------- choosing a type

  function NonNull(s: FieldStats): nat {
    if s.totalCount >= s.nullCount then s.totalCount - s.nullCount else 0
  }

  /**
   * Index of the last maximum of the counts, as `Iterator::max_by_key` returns the last of
   * several equally maximal elements.
   */
  function LastMaxIndex<T>(c: seq<(nat, T)>): (k: nat)
    requires |c| > 0
    ensures k < |c|
    ensures forall j :: 0 <= j < |c| ==> c[j].0 <= c[k].0
    ensures forall j :: k < j < |c| ==> c[j].0 < c[k].0
  {
    if |c| == 1 then 0
    else
      var k := LastMaxIndex(c[..|c| - 1]);
      if c[|c| - 1].0 >= c[k].0 then |c| - 1 else k
  }

  /** The counts in scan order, each paired with its type. */
  function Candidates(s: FieldStats): (c: seq<(nat, ColumnType)>)
    ensures |c| == 5
  {
    [(s.floatCount, Float64), (s.intCount, Int64), (s.uintCount, UInt64),
     (s.boolCount, Boolean), (s.stringCount, Utf8)]
  }

  /** Each type's count sits at the type's rank. */
  lemma CandidatesByRank(s: FieldStats)
    ensures forall u :: Candidates(s)[Rank(u)] == (CountOf(s, Some(u)), u)
    ensures forall i :: 0 <= i < 5 ==> Rank(Candidates(s)[i].1) == i
  {
    forall u ensures Candidates(s)[Rank(u)] == (CountOf(s, Some(u)), u) {
      match u
      case Float64 =>
      case Int64 =>
      case UInt64 =>
      case Boolean =>
      case Utf8 =>
    }
  }

  /**
   * `determine_type`: Utf8 when nothing non-null was seen; otherwise a type with the largest
   * count, the latest in scan order among equals.
   */
  function DetermineType(s: FieldStats): (t: ColumnType)
    ensures NonNull(s) == 0 ==> t == Utf8
    ensures NonNull(s) > 0 ==> forall u :: CountOf(s, Some(u)) <= CountOf(s, Some(t))
    ensures NonNull(s) > 0 ==> forall u :: Rank(u) > Rank(t) ==> CountOf(s, Some(u)) < CountOf(s, Some(t))
  {
    if NonNull(s) == 0 then Utf8
    else
      var c := Candidates(s);
      var k := LastMaxIndex(c);
      CandidatesByRank(s);
      c[k].1
  }

  /** With consistent counters, a type chosen from non-null observations was observed. */
  lemma ChosenTypeWasObserved(s: FieldStats)
    requires Balanced(s) && NonNull(s) > 0
    ensures CountOf(s, Some(DetermineType(s))) > 0
  {
    var t := DetermineType(s);
    assert CountOf(s, Some(Float64)) <= CountOf(s, Some(t));
    assert CountOf(s, Some(Int64)) <= CountOf(s, Some(t));
    assert CountOf(s, Some(UInt64)) <= CountOf(s, Some(t));
    assert CountOf(s, Some(Boolean)) <= CountOf(s, Some(t));
    assert CountOf(s, Some(Utf8)) <= CountOf(s, Some(t));
  }

  /** A bool/string tie goes to Utf8, the later of the two in scan order. */
  lemma BoolStringTieGivesUtf8()
    ensures DetermineType(FieldStats(1, 0, 0, 0, 1, 0, 2)) == Utf8
  {
    var s := FieldStats(1, 0, 0, 0, 1, 0, 2);
    var t := DetermineType(s);
    assert CountOf(s, Some(Utf8)) <= CountOf(s, Some(t));
    assert CountOf(s, Some(Boolean)) == 1;
  }

  /** A float/int tie goes to Int64, and an int/uint tie to UInt64. */
  lemma NumberTiesGoLater()
    ensures DetermineType(FieldStats(0, 1, 0, 1, 0, 0, 2)) == Int64
    ensures DetermineType(FieldStats(0, 1, 1, 0, 0, 0, 2)) == UInt64
  {
    var s := FieldStats(0, 1, 0, 1, 0, 0, 2);
    var t := DetermineType(s);
    assert CountOf(s, Some(Int64)) <= CountOf(s, Some(t));
    assert CountOf(s, Some(Float64)) == 1;
    var s' := FieldStats(0, 1, 1, 0, 0, 0, 2);
    var t' := DetermineType(s');
    assert CountOf(s', Some(UInt64)) <= CountOf(s', Some(t'));
    assert CountOf(s', Some(Int64)) == 1;
  }

  // ---------------------------------------------------------------- schema inference

  datatype Field = Field(dataType: ColumnType, nullable: bool)

  function FieldFor(s: FieldStats): Field {
    Field(DetermineType(s), s.nullCount > 0 || s.totalCount == 0)
  }

  /** The keys of an object's members. */
  function Keys(members: seq<(string, Value)>): set<string> {
    set j | 0 <= j < |members| :: members[j].0
  }

  /** Every key of every object record; other records contribute nothing. */
  function KeysSeen(records: seq<Value>): set<string> {
    if records == [] then {}
    else
      var last := records[|records| - 1];
      KeysSeen(records[..|records| - 1]) + (if last.Obj? then Keys(last.members) else {})
  }

  /** The values stored under `key` among an object's members, in order. */
  function ValuesUnder(members: seq<(string, Value)>, key: string): seq<Value> {
    if members == [] then []
    else
      var last := members[|members| - 1];
      ValuesUnder(members[..|members| - 1], key) + (if last.0 == key then [last.1] else [])
  }

  /** Every value observed under `key`, record by record. */
  function Observations(records: seq<Value>, key: string): seq<Value> {
    if records == [] then []
    else
      var last := records[|records| - 1];
      Observations(records[..|records| - 1], key) + (if last.Obj? then ValuesUnder(last.members, key) else [])
  }

  /** The schema: one field per key seen, typed and made nullable from all its observations. */
  function SchemaOf(records: seq<Value>): map<string, Field> {
    map key | key in KeysSeen(records) :: FieldFor(Tally(Observations(records, key)))
  }

  // The statistics map as the loop in `infer_schema` builds it.

  function At(stats: map<string, FieldStats>, key: string): FieldStats {
    if key in stats then stats[key] else NEW_STATS
  }

  /** One member counted: its key's entry, created fresh if missing, is updated with its value. */
  function Note(stats: map<string, FieldStats>, member: (string, Value)): map<string, FieldStats> {
    stats[member.0 := Update(At(stats, member.0), member.1)]
  }

  function RecordMembers(stats: map<string, FieldStats>, members: seq<(string, Value)>): map<string, FieldStats> {
    if members == [] then stats
    else Note(RecordMembers(stats, members[..|members| - 1]), members[|members| - 1])
  }

  function StatsOf(records: seq<Value>): map<string, FieldStats> {
    if records == [] then map[]
    else
      var before := StatsOf(records[..|records| - 1]);
      var last := records[|records| - 1];
      if last.Obj? then RecordMembers(before, last.members) else before
  }

  lemma KeysSnoc(members: seq<(string, Value)>)
    requires members != []
    ensures Keys(members) == Keys(members[..|members| - 1]) + {members[|members| - 1].0}
  {
    var init := members[..|members| - 1];
    forall k | k in Keys(members) ensures k in Keys(init) + {members[|members| - 1].0} {
      var j :| 0 <= j < |members| && members[j].0 == k;
      if j < |init| {
        assert init[j] == members[j];
      }
    }
    forall k | k in Keys(init) ensures k in Keys(members) {
      var j :| 0 <= j < |init| && init[j].0 == k;
      assert members[j] == init[j];
    }
  }

  lemma TallyFromSnoc(s: FieldStats, vs: seq<Value>, v: Value)
    ensures TallyFrom(s, vs + [v]) == Update(TallyFrom(s, vs), v)
  {
    assert (vs + [v])[..|vs|] == vs;
  }

  lemma {:induction false} RecordMembersSpec(stats: map<string, FieldStats>, members: seq<(string, Value)>, key: string)
    ensures At(RecordMembers(stats, members), key) == TallyFrom(At(stats, key), ValuesUnder(members, key))
    ensures key in RecordMembers(stats, members) <==> key in stats || key in Keys(members)
    decreases |members|
  {
    if members == [] {
      assert Keys(members) == {};
    } else {
      var init := members[..|members| - 1];
      var before := RecordMembers(stats, init);
      var k := members[|members| - 1].0;
      var v := members[|members| - 1].1;
      var vs := ValuesUnder(init, key);
      RecordMembersSpec(stats, init, key);
      KeysSnoc(members);
      assert RecordMembers(stats, members) == Note(before, (k, v));
      if k == key {
        assert ValuesUnder(members, key) == vs + [v];
        TallyFromSnoc(At(stats, key), vs, v);
      } else {
        assert ValuesUnder(members, key) == vs;
      }
    }
  }

  /** The loop's map holds, under each key, the tally of exactly that key's observations. */
  lemma {:induction false} StatsOfSpec(records: seq<Value>, key: string)
    ensures At(StatsOf(records), key) == Tally(Observations(records, key))
    decreases |records|
  {
    if records != [] {
      var init := records[..|records| - 1];
      var last := records[|records| - 1];
      var seen := Observations(init, key);
      StatsOfSpec(init, key);
      if last.Obj? {
        var vs := ValuesUnder(last.members, key);
        assert StatsOf(records) == RecordMembers(StatsOf(init), last.members);
        assert Observations(records, key) == seen + vs;
        RecordMembersSpec(StatsOf(init), last.members, key);
        assert At(StatsOf(records), key) == TallyFrom(TallyFrom(NEW_STATS, seen), vs);
        TallyFromAppend(NEW_STATS, seen, vs);
      } else {
        assert StatsOf(records) == StatsOf(init);
        assert Observations(records, key) == seen;
      }
    }
  }

  /** The loop's map has an entry for exactly the keys seen in object records. */
  lemma {:induction false} StatsOfKeys(records: seq<Value>, key: string)
    ensures key in StatsOf(records) <==> key in KeysSeen(records)
    decreases |records|
  {
    if records != [] {
      var init := records[..|records| - 1];
      var last := records[|records| - 1];
      StatsOfKeys(init, key);
      if last.Obj? {
        RecordMembersSpec(StatsOf(init), last.members, key);
      }
    }
  }

  lemma StatsOfStep(records: seq<Value>, i: nat)
    requires i < |records|
    ensures StatsOf(records[..i + 1]) ==
      if records[i].Obj? then RecordMembers(StatsOf(records[..i]), records[i].members)
      else StatsOf(records[..i])
  {
    assert records[..i + 1][..i] == records[..i];
  }

  lemma RecordMembersStep(stats: map<string, FieldStats>, members: seq<(string, Value)>, j: nat)
    requires j < |members|
    ensures RecordMembers(stats, members[..j + 1]) == Note(RecordMembers(stats, members[..j]), members[j])
  {
    assert members[..j + 1][..j] == members[..j];
  }

  /** One field per entry of the loop's map is the schema. */
  lemma SchemaFromStats(records: seq<Value>)
    ensures (map key | key in StatsOf(records) :: FieldFor(StatsOf(records)[key])) == SchemaOf(records)
  {
    var stats := StatsOf(records);
    var built := map key | key in stats :: FieldFor(stats[key]);
    forall key ensures (key in built <==> key in SchemaOf(records)) &&
                       (key in built ==> built[key] == SchemaOf(records)[key]) {
      StatsOfSpec(records, key);
      StatsOfKeys(records, key);
    }
  }

  /** `infer_schema`: one pass over the records and their members, then one field per entry. */
  method InferSchema(records: seq<Value>) returns (schema: map<string, Field>)
    ensures schema == SchemaOf(records)
  {
    var stats: map<string, FieldStats> := map[];
    for i := 0 to |records|
      invariant stats == StatsOf(records[..i])
    {
      StatsOfStep(records, i);
      if records[i].Obj? {
        var members := records[i].members;
        ghost var start := stats;
        for j := 0 to |members|
          invariant stats == RecordMembers(start, members[..j])
        {
          RecordMembersStep(start, members, j);
          var (key, v) := members[j];
          var s := if key in stats then stats[key] else NEW_STATS;
          stats := stats[key := Update(s, v)];
        }
        assert members[..|members|] == members;
      }
    }
    assert records[..|records|] == records;
    schema := map key | key in stats :: FieldFor(stats[key]);
    SchemaFromStats(records);
  }

  lemma {:induction false} ValuesUnderKeys(members: seq<(string, Value)>, key: string)
    ensures ValuesUnder(members, key) != [] <==> key in Keys(members)
    decreases |members|
  {
    if members != [] {
      ValuesUnderKeys(members[..|members| - 1], key);
      KeysSnoc(members);
    }
  }

  /** A key was seen exactly when something was observed under it. */
  lemma {:induction false} KeysSeenObserved(records: seq<Value>, key: string)
    ensures key in KeysSeen(records) <==> Observations(records, key) != []
    decreases |records|
  {
    if records != [] {
      var last := records[|records| - 1];
      KeysSeenObserved(records[..|records| - 1], key);
      if last.Obj? {
        ValuesUnderKeys(last.members, key);
      }
    }
  }

  /** A field of the schema describes the non-empty list of values observed under its key. */
  lemma SchemaEntry(records: seq<Value>, key: string)
    requires key in SchemaOf(records)
    ensures Observations(records, key) != []
    ensures SchemaOf(records)[key] == FieldFor(Tally(Observations(records, key)))
  {
    KeysSeenObserved(records, key);
  }

  /** A field is nullable exactly when a null was observed under its key. */
  lemma NullableIffNullSeen(records: seq<Value>, key: string)
    requires key in SchemaOf(records)
    ensures SchemaOf(records)[key].nullable <==> Null in Observations(records, key)
  {
    var vs := Observations(records, key);
    SchemaEntry(records, key);
    TallyCounts(vs);
    OccurrencesPositive(vs, None);
    if Null in vs {
      var i :| 0 <= i < |vs| && vs[i] == Null;
      assert Kind(vs[i]).None?;
    }
  }

  /** Counters that saw only bools choose a non-nullable Boolean field. */
  lemma OnlyBoolsCounted(s: FieldStats)
    requires Balanced(s) && s.totalCount > 0 && s.boolCount == s.totalCount
    ensures FieldFor(s) == Field(Boolean, false)
  {
    var t := DetermineType(s);
    assert CountOf(s, Some(Boolean)) <= CountOf(s, Some(t));
  }

  /** A key whose every observation is a bool becomes a non-nullable Boolean column. */
  lemma AllBoolsGiveBoolean(records: seq<Value>, key: string)
    requires key in SchemaOf(records)
    requires forall v :: v in Observations(records, key) ==> v.Bool?
    ensures SchemaOf(records)[key] == Field(Boolean, false)
  {
    var vs := Observations(records, key);
    SchemaEntry(records, key);
    TallyCounts(vs);
    AllOfKind(vs, Boolean);
    var s := Tally(vs);
    assert CountOf(s, Some(Boolean)) == |vs|;
    OnlyBoolsCounted(s);
  }

  lemma {:induction false} AllOfKind(vs: seq<Value>, t: ColumnType)
    requires forall v :: v in vs ==> Kind(v) == Some(t)
    ensures forall k :: Occurrences(vs, k) == (if k == Some(t) then |vs| else 0)
  {
    if vs != [] {
      var init := vs[..|vs| - 1];
      assert forall v :: v in init ==> v in vs;
      assert vs[|vs| - 1] in vs;
      AllOfKind(init, t);
    }
  }

  /** `json_to_arrow` up to the schema: an empty record list is refused before inference. */
  method JsonToArrow(records: seq<Value>) returns (r: Result<map<string, Field>, string>)
    ensures records == [] <==> r == Err(EMPTY_INPUT)
    ensures records != [] ==> r == Ok(SchemaOf(records))
  {
    if |records| == 0 {
      return Err(EMPTY_INPUT);
    }
    var schema := InferSchema(records);
    return Ok(schema);
  }

  // ---------------------------------------------------------------- column coercions

  /** The value under `name`, when the record is an object holding it. */
  function Slot(record: Value, name: string): Option<Value> {
    Get(record, name)
  }

  /** Case-insensitive "true"/"1" and "false"/"0". */
  function BoolText(s: string): (b: Option<bool>)
    ensures b == Some(true) <==> AsciiLower(s) == "true" || s == "1"
    ensures b == Some(false) <==> AsciiLower(s) == "false" || s == "0"
  {
    var l := AsciiLower(s);
    if l == "true" || l == "1" then Some(true)
    else if l == "false" || l == "0" then Some(false)
    else None
  }

  /** The exact value of a number; `as_f64`'s rounding never moves a value to or from zero. */
  function ExactValue(n: Number): real {
    match n
    case PosInt(u) => u as real
    case NegInt(i) => i as real
    case Float(x, _) => x
  }

  function BoolCell(record: Value, name: string): Option<bool> {
    match Slot(record, name)
    case Some(Bool(b)) => Some(b)
    case Some(Str(s)) => BoolText(s)
    case Some(Num(n)) =>
      if AsI64(n).Some? then Some(AsI64(n).value != 0) else Some(ExactValue(n) != 0.0)
    case _ => None
  }

  function Int64Cell(record: Value, name: string): Option<i64> {
    match Slot(record, name)
    case Some(Num(n)) =>
      if AsI64(n).Some? then AsI64(n)
      else if AsU64(n).Some? then Some(U64AsI64(AsU64(n).value))
      else Some(SaturatingTruncate(ExactValue(n)))
    case Some(Str(s)) => ParseI64(s)
    case _ => None
  }

  function UInt64Cell(record: Value, name: string): Option<u64> {
    match Slot(record, name)
    case Some(Num(n)) =>
      if AsU64(n).Some? then AsU64(n)
      else if AsI64(n).Some? && AsI64(n).value >= 0 then Some(AsI64(n).value)
      else None
    case Some(Str(s)) => ParseU64(s)
    case _ => None
  }

  function Utf8Cell(record: Value, name: string): Option<string> {
    match Slot(record, name)
    case Some(Str(s)) => Some(s)
    case Some(Null) => None
    case Some(other) => Some(Render(other))
    case None => None
  }

  method BuildBooleanArray(records: seq<Value>, name: string) returns (column: seq<Option<bool>>)
    ensures |column| == |records|
    ensures forall i :: 0 <= i < |records| ==> column[i] == BoolCell(records[i], name)
  {
    column := [];
    for i := 0 to |records|
      invariant |column| == i
      invariant forall j :: 0 <= j < i ==> column[j] == BoolCell(records[j], name)
    {
      column := column + [BoolCell(records[i], name)];
    }
  }

  method BuildInt64Array(records: seq<Value>, name: string) returns (column: seq<Option<i64>>)
    ensures |column| == |records|
    ensures forall i :: 0 <= i < |records| ==> column[i] == Int64Cell(records[i], name)
  {
    column := [];
    for i := 0 to |records|
      invariant |column| == i
      invariant forall j :: 0 <= j < i ==> column[j] == Int64Cell(records[j], name)
    {
      column := column + [Int64Cell(records[i], name)];
    }
  }

  method BuildUInt64Array(records: seq<Value>, name: string) returns (column: seq<Option<u64>>)
    ensures |column| == |records|
    ensures forall i :: 0 <= i < |records| ==> column[i] == UInt64Cell(records[i], name)
  {
    column := [];
    for i := 0 to |records|
      invariant |column| == i
      invariant forall j :: 0 <= j < i ==> column[j] == UInt64Cell(records[j], name)
    {
      column := column + [UInt64Cell(records[i], name)];
    }
  }

  method BuildStringArray(records: seq<Value>, name: string) returns (column: seq<Option<string>>)
    ensures |column| == |records|
    ensures forall i :: 0 <= i < |records| ==> column[i] == Utf8Cell(records[i], name)
  {
    column := [];
    for i := 0 to |records|
      invariant |column| == i
      invariant forall j :: 0 <= j < i ==> column[j] == Utf8Cell(records[j], name)
    {
      column := column + [Utf8Cell(records[i], name)];
    }
  }

  /** A record that is not an object, or lacks the key, or holds null there, gives a null slot in every column. */
  lemma AbsentGivesNull(record: Value, name: string)
    requires Slot(record, name).None? || Slot(record, name) == Some(Null)
    ensures BoolCell(record, name).None? && Int64Cell(record, name).None?
    ensures UInt64Cell(record, name).None? && Utf8Cell(record, name).None?
  {
  }

  lemma {:induction false} AsciiLowerIdempotent(s: string)
    ensures AsciiLower(AsciiLower(s)) == AsciiLower(s)
  {
    var l := AsciiLower(s);
    forall i | 0 <= i < |s| ensures AsciiLower(l)[i] == l[i] {
      var c := s[i];
      if 'A' <= c <= 'Z' {
        assert 'a' <= l[i] <= 'z';
      }
    }
  }

  /** Boolean text is read without regard to ASCII case. */
  lemma BoolTextIgnoresCase(s: string)
    ensures BoolText(AsciiLower(s)) == BoolText(s)
  {
    AsciiLowerIdempotent(s);
  }

  lemma LowerTrue()
    ensures AsciiLower("TRUE") == "true"
  {
    var l := AsciiLower("TRUE");
    assert l[0] == 't' && l[1] == 'r' && l[2] == 'u' && l[3] == 'e';
  }

  lemma LowerFalse()
    ensures AsciiLower("False") == "false"
  {
    var l := AsciiLower("False");
    assert l[0] == 'f' && l[1] == 'a' && l[2] == 'l' && l[3] == 's' && l[4] == 'e';
  }

  /** "TRUE" and "False" are read as booleans; "yes" is not. */
  lemma BoolTextExamples()
    ensures BoolText("TRUE") == Some(true)
    ensures BoolText("False") == Some(false)
    ensures BoolText("yes") == None
  {
    LowerTrue();
    LowerFalse();
    assert |AsciiLower("yes")| == 3;
  }

  /** A string member is read by each column's own text rule; a Utf8 column keeps it unquoted. */
  lemma StringMemberCells(name: string, s: string)
    ensures BoolCell(Obj([(name, Str(s))]), name) == BoolText(s)
    ensures Int64Cell(Obj([(name, Str(s))]), name) == ParseI64(s)
    ensures UInt64Cell(Obj([(name, Str(s))]), name) == ParseU64(s)
    ensures Utf8Cell(Obj([(name, Str(s))]), name) == Some(s)
  {
    assert Slot(Obj([(name, Str(s))]), name) == Some(Str(s));
  }

  /** A number of a Boolean column is true when non-zero; an array or object is null. */
  lemma BoolFromNumbers(name: string, i: i64, x: real, text: string)
    ensures BoolCell(Obj([(name, Num(if i >= 0 then PosInt(i) else NegInt(i)))]), name) == Some(i != 0)
    ensures BoolCell(Obj([(name, Num(PosInt(I64_MAX + 1)))]), name) == Some(true)
    ensures BoolCell(Obj([(name, Num(Float(x, text)))]), name) == Some(x != 0.0)
    ensures BoolCell(Obj([(name, Arr([]))]), name) == None
  {
  }

  /**
   * A number under the name: an i64 is kept by Int64 and a u64 by UInt64; a float is
   * truncated (saturating) by Int64 and null in UInt64; a negative integer is null in UInt64.
   */
  lemma NumberCells(record: Value, name: string)
    ensures var m := Slot(record, name);
      m.Some? && m.value.Num? ==>
        var n := m.value.n;
        && (n.NegInt? ==> Int64Cell(record, name) == Some(n.i) && UInt64Cell(record, name) == None)
        && (n.PosInt? && n.u <= I64_MAX ==> Int64Cell(record, name) == Some(n.u))
        && (n.PosInt? ==> UInt64Cell(record, name) == Some(n.u))
        && (n.Float? ==> Int64Cell(record, name) == Some(SaturatingTruncate(n.value))
                         && UInt64Cell(record, name) == None)
  {
  }

  /**
   * A bool under the name is kept by a Boolean column and null in the integer columns; an
   * array or object is null in all three.
   */
  lemma NonNumberCells(record: Value, name: string)
    ensures var m := Slot(record, name);
      m.Some? && m.value.Bool? ==>
        BoolCell(record, name) == Some(m.value.b)
        && Int64Cell(record, name).None? && UInt64Cell(record, name).None?
    ensures var m := Slot(record, name);
      m.Some? && (m.value.Arr? || m.value.Obj?) ==>
        BoolCell(record, name).None? && Int64Cell(record, name).None? && UInt64Cell(record, name).None?
  {
  }

  /** A decimal integer string reads back as the same integer in an Int64 column. */
  lemma Int64TextRoundTrip(name: string, i: i64)
    ensures Int64Cell(Obj([(name, Str(IntToDecimal(i)))]), name) == Some(i)
  {
    StringMemberCells(name, IntToDecimal(i));
    I64RoundTrip(i);
  }

  /** A decimal string of a u64 reads back as the same value in a UInt64 column. */
  lemma UInt64TextRoundTrip(name: string, u: u64)
    ensures UInt64Cell(Obj([(name, Str(NatToDecimal(u)))]), name) == Some(u)
  {
    StringMemberCells(name, NatToDecimal(u));
    U64RoundTrip(u);
  }

  /** A negative number, as a number or as text, gives a null slot in a UInt64 column. */
  lemma NegativeNeverUnsigned(name: string, neg: NegI64)
    ensures UInt64Cell(Obj([(name, Num(NegInt(neg)))]), name) == None
    ensures UInt64Cell(Obj([(name, Str(IntToDecimal(neg)))]), name) == None
  {
    StringMemberCells(name, IntToDecimal(neg));
    assert IntToDecimal(neg)[0] == '-';
  }

  /** A u64 above the i64 range wraps around to a negative value in an Int64 column. */
  lemma LargeUnsignedWraps(name: string, u: u64)
    requires u > I64_MAX
    ensures Int64Cell(Obj([(name, Num(PosInt(u)))]), name) == Some(u - WORD)
  {
  }

  /** Every non-null value other than a string enters a Utf8 column as its JSON text. */
  lemma OtherValuesRendered(name: string, v: Value)
    requires !v.Str? && !v.Null?
    ensures Utf8Cell(Obj([(name, v)]), name) == Some(Render(v))
    ensures Utf8Cell(Obj([(name, Bool(true))]), name) == Some("true")
  {
  }
}

=== FILE: extract.dfy ===
/**
 * The extraction contract every source adapter satisfies (the `Extractor` trait) and its
 * small shared value types. The contract's defaulted members are what carries logic: an
 * adapter opts into incremental extraction by overriding `supports_incremental`; everything
 * it does not override falls back to the default bodies below.
 */
module Extract {
  import opened Wrappers

  /** An opaque resume token for incremental extraction. */
  datatype Checkpoint = Checkpoint(token: string)

  /** The output shape a caller asks for. */
  datatype ExtractFormat = Json | Text | Bytes

  /**
   * The error kinds the core produces: a failed HTTP exchange, a request template that could
   * not be cloned for execution, and the free-text operation error.
   */
  datatype ExtractorError =
    | HttpRequestError(reason: string)
    | RequestCloneFailed
    | ExtractOpsError(message: string)

  /** `ExtractorResult<()>` */
  type Outcome = Result<(), ExtractorError>

  const NOT_INCREMENTAL: string := "Source does not support incremental"

  /**
   * One adapter as the contract's default bodies see it. Each `...Override` field is the
   * adapter's own answer for that member, or None where the adapter keeps the default;
   * `extractJson` is the result of the required member `extract_json` for the current source.
   */
  datatype Adapter<T> = Adapter(
    incrementalOverride: Option<bool>,
    checkpointOverride: Option<Option<Checkpoint>>,
    schemaOverride: Option<Option<string>>,
    extractJson: Result<T, ExtractorError>)

  /** An adapter that overrides none of the defaulted members. */
  function WithDefaults<T>(extractJson: Result<T, ExtractorError>): (a: Adapter<T>)
    ensures a.extractJson == extractJson
  {
    Adapter(None, None, None, extractJson)
  }

  /** `supports_incremental`: false unless the adapter says otherwise. */
  function SupportsIncremental<T>(a: Adapter<T>): (r: bool)
    ensures a.incrementalOverride.None? ==> !r
    ensures a.incrementalOverride.Some? ==> r == a.incrementalOverride.value
  {
    match a.incrementalOverride
    case Some(b) => b
    case None => false
  }

  /** `checkpoint`: None unless the adapter says otherwise. */
  function CurrentCheckpoint<T>(a: Adapter<T>): (r: Option<Checkpoint>)
    ensures a.checkpointOverride.None? ==> r.None?
    ensures a.checkpointOverride.Some? ==> r == a.checkpointOverride.value
  {
    match a.checkpointOverride
    case Some(c) => c
    case None => None
  }

  /** `schema`: None unless the adapter says otherwise. */
  function Schema<T>(a: Adapter<T>): (r: Option<string>)
    ensures a.schemaOverride.None? ==> r.None?
    ensures a.schemaOverride.Some? ==> r == a.schemaOverride.value
  {
    match a.schemaOverride
    case Some(s) => s
    case None => None
  }

  /**
   * The default `set_checkpoint`: accepted exactly when the (possibly overridden)
   * `supports_incremental` says yes, and in either case the token is discarded, so the
   * adapter comes back unchanged.
   */
  function SetCheckpoint<T>(a: Adapter<T>, chk: Checkpoint): (r: (Adapter<T>, Outcome))
    ensures r.0 == a
    ensures r.1.Ok? <==> SupportsIncremental(a)
    ensures r.1.Err? ==> r.1.error == ExtractOpsError(NOT_INCREMENTAL)
  {
    if SupportsIncremental(a) then (a, Ok(())) else (a, Err(ExtractOpsError(NOT_INCREMENTAL)))
  }

  /** The default `extract`: exactly what `extract_json` gives. */
  function Extract<T>(a: Adapter<T>): (r: Result<T, ExtractorError>)
    ensures r == a.extractJson
  {
    a.extractJson
  }

  /**
   * The default `set_checkpoint` discards its argument: what `checkpoint` reports afterwards
   * is what it reported before, and the token passed makes no difference to the outcome.
   */
  lemma SetCheckpointDiscardsToken<T>(a: Adapter<T>, chk: Checkpoint, other: Checkpoint)
    ensures CurrentCheckpoint(SetCheckpoint(a, chk).0) == CurrentCheckpoint(a)
    ensures SetCheckpoint(a, chk) == SetCheckpoint(a, other)
  {
  }

  /**
   * An adapter that keeps every default is never incremental: it reports no checkpoint, has
   * no schema, and every `set_checkpoint` fails with the "not supported" error.
   */
  lemma DefaultsNeverIncremental<T>(extractJson: Result<T, ExtractorError>, chk: Checkpoint)
    ensures var a := WithDefaults(extractJson);
      && !SupportsIncremental(a)
      && CurrentCheckpoint(a) == None
      && Schema(a) == None
      && SetCheckpoint(a, chk).1 == Err(ExtractOpsError(NOT_INCREMENTAL))
      && Extract(a) == extractJson
  {
  }

  /**
   * Overriding `supports_incremental` alone is enough to make the default `set_checkpoint`
   * succeed, although the default still stores nothing.
   */
  lemma OptInAlone<T>(a: Adapter<T>, chk: Checkpoint)
    requires a.incrementalOverride == Some(true) && a.checkpointOverride.None?
    ensures SetCheckpoint(a, chk).1 == Ok(())
    ensures CurrentCheckpoint(SetCheckpoint(a, chk).0) == None
  {
  }
}

=== FILE: ints.dfy ===
/** The fixed-width integer ranges of the source (Rust's i64, u64, u32) and its casts between them. */
module Ints {

  const I64_MIN: int := -0x8000_0000_0000_0000
  const I64_MAX: int := 0x7FFF_FFFF_FFFF_FFFF
  const U64_MAX: int := 0xFFFF_FFFF_FFFF_FFFF
  /** 2^64: the number of values of a 64-bit word (`usize` on the 64-bit targets the source runs on). */
  const WORD: int := 0x1_0000_0000_0000_0000

  type i64 = x: int | I64_MIN <= x <= I64_MAX
  type u64 = x: int | 0 <= x <= U64_MAX
  type u32 = x: int | 0 <= x < 0x1_0000_0000

  /** Rust's `u as i64` on a u64: the same 64 bits read as two's complement. */
  function U64AsI64(u: u64): (r: i64)
    ensures r == u || r == u - WORD
    ensures r < 0 <==> u > I64_MAX
  {
    if u <= I64_MAX then u else u - WORD
  }

  /** Rust's `i as usize` on an i64 (64-bit target): the same 64 bits read as unsigned. */
  function I64AsUsize(i: i64): (r: nat)
    ensures r < WORD
    ensures i >= 0 ==> r == i
    ensures i < 0 ==> r == i + WORD
  {
    i % WORD
  }

  /** Integer division truncating toward zero, as Rust's `/` and chrono's `num_seconds` do. */
  function TruncDiv(x: int, d: nat): (q: int)
    requires d > 0
    ensures x >= 0 ==> q == x / d
    ensures x < 0 ==> q == -((-x) / d)
  {
    if x >= 0 then x / d else -((-x) / d)
  }

  /** Rust's `f as i64` on a finite float: truncation toward zero, saturating at the i64 bounds. */
  function SaturatingTruncate(x: real): (r: i64)
    ensures x >= 0.0 && x < (I64_MAX + 1) as real ==> r as real <= x < (r + 1) as real
    ensures x <= 0.0 && x > (I64_MIN - 1) as real ==> (r - 1) as real < x <= r as real
    ensures x >= (I64_MAX + 1) as real ==> r == I64_MAX
    ensures x <= (I64_MIN - 1) as real ==> r == I64_MIN
  {
    var t := if x >= 0.0 then x.Floor else -((-x).Floor);
    if t > I64_MAX then I64_MAX else if t < I64_MIN then I64_MIN else t
  }
}

=== FILE: json_values.dfy ===
/**
 * The JSON value model shared by the REST adapter and the columnar converter: serde_json's
 * `Value`, its `Number` classification (`is_i64`, `as_u64`, ...), object lookup and the
 * compact text rendering of `to_string`.
 */
module JsonValues {
  import opened Wrappers
  import opened Ints
  import opened Strings

  type NegI64 = x: int | I64_MIN <= x < 0 witness -1

  /**
   * serde_json keeps a number as a non-negative u64, a negative i64, or a finite f64. A float
   * is carried as its exact value together with its shortest decimal text (the text serde_json
   * writes for it).
   */
  datatype Number = PosInt(u: u64) | NegInt(i: NegI64) | Float(value: real, text: string)

  /** An object is its member list in the map's iteration order. */
  datatype Value =
    | Null
    | Bool(b: bool)
    | Num(n: Number)
    | Str(s: string)
    | Arr(items: seq<Value>)
    | Obj(members: seq<(string, Value)>)

  /** `Number::is_i64` */
  predicate IsI64(n: Number) {
    match n
    case PosInt(u) => u <= I64_MAX
    case NegInt(_) => true
    case Float(_, _) => false
  }

  /** `Number::is_u64` */
  predicate IsU64(n: Number) {
    n.PosInt?
  }

  /** `Number::as_i64` */
  function AsI64(n: Number): (r: Option<i64>)
    ensures r.Some? <==> IsI64(n)
    ensures n.NegInt? ==> r == Some(n.i)
    ensures n.PosInt? && n.u <= I64_MAX ==> r == Some(n.u)
  {
    match n
    case PosInt(u) => if u <= I64_MAX then Some(u) else None
    case NegInt(i) => Some(i)
    case Float(_, _) => None
  }

  /** `Number::as_u64` */
  function AsU64(n: Number): (r: Option<u64>)
    ensures r.Some? <==> IsU64(n)
    ensures n.PosInt? ==> r == Some(n.u)
  {
    match n
    case PosInt(u) => Some(u)
    case _ => None
  }

  /** `Map::get`: the value stored under `key`, if any. */
  function Lookup(members: seq<(string, Value)>, key: string): (r: Option<Value>)
    ensures r.Some? <==> exists i :: 0 <= i < |members| && members[i].0 == key
    ensures r.Some? ==> exists i :: 0 <= i < |members| && members[i] == (key, r.value)
  {
    if members == [] then None
    else if members[0].0 == key then Some(members[0].1)
    else
      var r := Lookup(members[1..], key);
      assert forall i :: 1 <= i < |members| ==> members[i] == members[1..][i - 1];
      r
  }

  /** `Value::get(key)`: member lookup on an object; nothing for any other kind of value. */
  function Get(v: Value, key: string): Option<Value> {
    if v.Obj? then Lookup(v.members, key) else None
  }

  const HEX_DIGITS: string := "0123456789abcdef"

  /** The text serde_json writes for one character inside a string literal. */
  function EscapeChar(c: char): (r: string)
    ensures |r| >= 1
    ensures |r| == 1 <==> r == [c]
  {
    if c == '"' then "\\\""
    else if c == '\\' then "\\\\"
    else if c == '\n' then "\\n"
    else if c == '\r' then "\\r"
    else if c == '\t' then "\\t"
    else if c == '\U{8}' then "\\b"
    else if c == '\U{C}' then "\\f"
    else if c < '\U{20}' then "\\u00" + [HEX_DIGITS[c as int / 16], HEX_DIGITS[c as int % 16]]
    else [c]
  }

  function Escape(s: string): string {
    if s == [] then [] else EscapeChar(s[0]) + Escape(s[1..])
  }

  /** A JSON string literal: the escaped text between double quotes. */
  function Quote(s: string): (r: string)
    ensures |r| >= 2 && r[0] == '"' && r[|r| - 1] == '"'
  {
    "\"" + Escape(s) + "\""
  }

  function HexValue(c: char): Option<nat> {
    if '0' <= c <= '9' then Some(c as int - '0' as int)
    else if 'a' <= c <= 'f' then Some(c as int - 'a' as int + 10)
    else if 'A' <= c <= 'F' then Some(c as int - 'A' as int + 10)
    else None
  }

  /** Reads back the escaped body of a string literal, as a JSON parser does. */
  function Unescape(t: string): Option<string> {
    if t == [] then Some([])
    else if t[0] != '\\' then
      match Unescape(t[1..])
      case Some(rest) => Some([t[0]] + rest)
      case None => None
    else if |t| < 2 then None
    else
      var e := t[1];
      var simple :=
        if e == '"' then Some('"') else if e == '\\' then Some('\\') else if e == '/' then Some('/')
        else if e == 'n' then Some('\n') else if e == 'r' then Some('\r')
        else if e == 't' then Some('\t') else if e == 'b' then Some('\U{8}')
        else if e == 'f' then Some('\U{C}') else None;
      if simple.Some? then
        match Unescape(t[2..])
        case Some(rest) => Some([simple.value] + rest)
        case None => None
      else if e == 'u' && |t| >= 6 then
        match (HexValue(t[2]), HexValue(t[3]), HexValue(t[4]), HexValue(t[5]))
        case (Some(a), Some(b), Some(c), Some(d)) =>
          var code := ((a * 16 + b) * 16 + c) * 16 + d;
          if code < 0xD800 then
            match Unescape(t[6..])
            case Some(rest) => Some([code as char] + rest)
            case None => None
          else None
        case _ => None
      else None
  }

  /** Every hexadecimal digit written reads back as its value. */
  lemma HexDigitValue(d: nat)
    requires d < 16
    ensures HexValue(HEX_DIGITS[d]) == Some(d)
  {
  }

  /** A control character without a short escape reads back from its `\u00XX` form. */
  lemma UnescapeHexEscape(c: char, rest: string)
    requires c < '\U{20}' && c != '\n' && c != '\r' && c != '\t' && c != '\U{8}' && c != '\U{C}'
    ensures Unescape(EscapeChar(c) + rest) ==
      match Unescape(rest) case Some(r) => Some([c] + r) case None => None
  {
    var hi, lo := c as int / 16, c as int % 16;
    var e := EscapeChar(c) + rest;
    assert EscapeChar(c) == "\\u00" + [HEX_DIGITS[hi], HEX_DIGITS[lo]];
    assert e[0] == '\\' && e[1] == 'u' && e[2] == '0' && e[3] == '0';
    assert e[4] == HEX_DIGITS[hi] && e[5] == HEX_DIGITS[lo];
    HexDigitValue(hi);
    HexDigitValue(lo);
    assert HexValue(e[2]) == Some(0) && HexValue(e[3]) == Some(0);
    assert ((0 * 16 + 0) * 16 + hi) * 16 + lo == c as int;
    assert e[6..] == rest;
  }

  lemma UnescapeEscapeChar(c: char, rest: string)
    ensures Unescape(EscapeChar(c) + rest) ==
      match Unescape(rest) case Some(r) => Some([c] + r) case None => None
  {
    var e := EscapeChar(c) + rest;
    if c < '\U{20}' && c != '\n' && c != '\r' && c != '\t' && c != '\U{8}' && c != '\U{C}' {
      UnescapeHexEscape(c, rest);
    } else if |EscapeChar(c)| == 2 {
      assert e[2..] == rest;
    } else {
      assert e[1..] == rest;
    }
  }

  /** Escaping loses nothing: a parser reading the escaped text gets the original string. */
  lemma {:induction false} UnescapeEscape(s: string)
    ensures Unescape(Escape(s)) == Some(s)
  {
    if s != [] {
      UnescapeEscape(s[1..]);
      UnescapeEscapeChar(s[0], Escape(s[1..]));
      assert [s[0]] + s[1..] == s;
    }
  }

  function JoinComma(parts: seq<string>): string {
    if parts == [] then ""
    else if |parts| == 1 then parts[0]
    else parts[0] + "," + JoinComma(parts[1..])
  }

  /** `Number`'s text: integers in decimal, floats as carried. */
  function RenderNumber(n: Number): (r: string)
    ensures |r| >= 1 || n.Float?
  {
    match n
    case PosInt(u) => NatToDecimal(u)
    case NegInt(i) => IntToDecimal(i)
    case Float(_, text) => text
  }

  /** `Value::to_string`: serde_json's compact JSON text. */
  function Render(v: Value): string
    decreases v
  {
    match v
    case Null => "null"
    case Bool(b) => if b then "true" else "false"
    case Num(n) => RenderNumber(n)
    case Str(s) => Quote(s)
    case Arr(items) =>
      "[" + JoinComma(seq(|items|, i requires 0 <= i < |items| => Render(items[i]))) + "]"
    case Obj(members) =>
      "{" + JoinComma(seq(|members|, i requires 0 <= i < |members| =>
                            Quote(members[i].0) + ":" + Render(members[i].1))) + "}"
  }

  /** A rendered string reads back as the same string. */
  lemma RenderStrRoundTrip(s: string)
    ensures var t := Render(Str(s)); Unescape(t[1..|t| - 1]) == Some(s)
  {
    var t := Render(Str(s));
    assert t[1..|t| - 1] == Escape(s);
    UnescapeEscape(s);
  }
}

=== FILE: log_store.dfy ===
/**
 * The execution record: one operation's status, timing, progress and throughput, updated in
 * place by its owner. The clock, the id generator, the `HOSTNAME` variable and the process id
 * are parameters; timestamps are milliseconds since the epoch.
 */
module Logger {
  import opened Wrappers
  import opened Ints
  import opened JsonValues

  datatype LogStatus = Started | InProgress | Completed | Failed | Cancelled

  /** All fields of a `LogStore` as one value. */
  datatype LogRecord = LogRecord(
    id: string,
    parentId: Option<string>,
    operation: string,
    operationType: string,
    status: LogStatus,
    errorMessage: Option<string>,
    createdAt: Millis,
    startedAt: Option<Millis>,
    completedAt: Option<Millis>,
    elapsedMs: Option<nat>,
    totalItems: Option<nat>,
    processedItems: Option<nat>,
    progressPercentage: Option<real>,
    itemsPerSecond: Option<real>,
    memoryUsageMb: Option<real>,
    sourceUri: Option<string>,
    destinationUri: Option<string>,
    metadata: Value,
    tags: seq<string>,
    hostname: Option<string>,
    processId: Option<u32>)

  function Max(a: int, b: int): int { if a >= b then a else b }

  /** Elapsed milliseconds as stored: the signed difference cast to `usize`. */
  function ElapsedMs(started: Millis, completed: Millis): (ms: nat)
    ensures completed >= started ==> ms == completed - started
  {
    I64AsUsize(completed - started)
  }

  /** `processed / max(total, 1) * 100` */
  function Percentage(processed: nat, total: nat): real {
    (processed as real / Max(total, 1) as real) * 100.0
  }

  /** Throughput over whole elapsed seconds, with a one-second floor. */
  function Rate(processed: nat, elapsedMs: int): real {
    processed as real / Max(TruncDiv(elapsedMs, 1000), 1) as real
  }

  /**
   * An instant in milliseconds since the epoch. Every instant chrono can represent (about
   * 262,000 years either side of the epoch) lies in this range, so differences fit an i64.
   */
  const MAX_MILLIS := 0x3FFF_FFFF_FFFF_FFFF
  type Millis = t: int | -MAX_MILLIS <= t <= MAX_MILLIS

  // The record after each operation.

  /** `created_at` and `started_at` come from two readings of the clock. */
  function Created(operation: string, operationType: string, id: string, now: Millis, startNow: Millis,
                   hostVar: Option<string>, pid: u32): LogRecord
  {
    LogRecord(id, None, operation, operationType, Started, None, now, Some(startNow), None, None,
              None, None, None, None, None, None, None, Null, [], Some(hostVar.GetOr("")), Some(pid))
  }

  function WithElapsed(r: LogRecord): LogRecord
  {
    if r.startedAt.Some? && r.completedAt.Some? then
      r.(elapsedMs := Some(ElapsedMs(r.startedAt.value, r.completedAt.value)))
    else r
  }

  function MarkedInProgress(r: LogRecord, now: Millis): LogRecord {
    r.(status := InProgress, startedAt := Some(now))
  }

  function MarkedCompleted(r: LogRecord, now: Millis): LogRecord
  {
    WithElapsed(r.(status := Completed, completedAt := Some(now)))
  }

  function MarkedFailed(r: LogRecord, message: string, now: Millis): LogRecord
  {
    WithElapsed(r.(status := Failed, errorMessage := Some(message), completedAt := Some(now)))
  }

  function ProgressUpdated(r: LogRecord, processed: nat, total: nat, now: Millis): LogRecord {
    var counted := r.(processedItems := Some(processed), totalItems := Some(total),
                      progressPercentage := Some(Percentage(processed, total)));
    if r.startedAt.Some? then
      counted.(itemsPerSecond := Some(Rate(processed, now - r.startedAt.value)))
    else counted
  }

  function Tagged(r: LogRecord, tag: string): LogRecord {
    r.(tags := r.tags + [tag])
  }

  /**
   * What every record reachable from `new` satisfies: it has a start time; once a terminal
   * status is set, completion time and elapsed time are present and agree with the start;
   * a failed record has its message; percentage and counters are present together and agree.
   */
  ghost predicate Valid(r: LogRecord) {
    && r.startedAt.Some?
    && (r.elapsedMs.Some? ==> r.completedAt.Some?)
    && (r.status == Completed || r.status == Failed ==>
          r.completedAt.Some? && r.elapsedMs == Some(ElapsedMs(r.startedAt.value, r.completedAt.value)))
    && (r.status == Failed ==> r.errorMessage.Some?)
    && r.status != Cancelled
    && r.processedItems.Some? == r.totalItems.Some? == r.progressPercentage.Some?
    && (r.progressPercentage.Some? ==>
          r.progressPercentage.value == Percentage(r.processedItems.value, r.totalItems.value))
  }

  /** The fields no operation after `new` ever writes. */
  function Identity(r: LogRecord): (string, Option<string>, string, string, int, Option<string>, Option<u32>, Option<real>) {
    (r.id, r.parentId, r.operation, r.operationType, r.createdAt, r.hostname, r.processId, r.memoryUsageMb)
  }

  /** A new record is Started, has its start stamped, and has nothing else measured yet. */
  lemma CreatedIsValid(operation: string, operationType: string, id: string, now: Millis,
                       startNow: Millis, hostVar: Option<string>, pid: u32)
    ensures var r := Created(operation, operationType, id, now, startNow, hostVar, pid);
      && Valid(r)
      && r.status == Started && r.startedAt == Some(startNow) && r.createdAt == now
      && r.completedAt == None && r.elapsedMs == None && r.errorMessage == None
      && r.progressPercentage == None && r.itemsPerSecond == None
      && r.tags == [] && r.metadata == Null
      && r.hostname == Some(hostVar.GetOr("")) && r.processId == Some(pid)
  {
  }

  // Every operation keeps the record valid, and none changes its identity.

  lemma InProgressKeepsValid(r: LogRecord, now: Millis)
    requires Valid(r)
    ensures Valid(MarkedInProgress(r, now)) && Identity(MarkedInProgress(r, now)) == Identity(r)
  {
  }

  lemma CompletedKeepsValid(r: LogRecord, now: Millis)
    requires Valid(r)
    ensures Valid(MarkedCompleted(r, now)) && Identity(MarkedCompleted(r, now)) == Identity(r)
  {
  }

  lemma FailedKeepsValid(r: LogRecord, message: string, now: Millis)
    requires Valid(r)
    ensures Valid(MarkedFailed(r, message, now)) && Identity(MarkedFailed(r, message, now)) == Identity(r)
  {
  }

  lemma ProgressKeepsValid(r: LogRecord, processed: nat, total: nat, now: Millis)
    requires Valid(r)
    ensures Valid(ProgressUpdated(r, processed, total, now))
    ensures Identity(ProgressUpdated(r, processed, total, now)) == Identity(r)
  {
  }

  lemma TaggedKeepsValid(r: LogRecord, tag: string)
    requires Valid(r)
    ensures Valid(Tagged(r, tag)) && Identity(Tagged(r, tag)) == Identity(r)
  {
  }

  /**
   * Completion measures from the most recent start: marking in progress at t1 and completed
   * at t2 ≥ t1 gives an elapsed time of t2 - t1, whatever the record's status was before.
   */
  lemma InProgressThenCompleted(r: LogRecord, t1: Millis, t2: Millis)
    requires t1 <= t2
    ensures var done := MarkedCompleted(MarkedInProgress(r, t1), t2);
      done.status == Completed && done.completedAt == Some(t2) && done.elapsedMs == Some(t2 - t1)
  {
  }

  /**
   * Nothing checks transitions: a second terminal mark overwrites the first one's status,
   * completion time and elapsed time, and a failure message survives a later completion.
   */
  lemma LaterTerminalMarkWins(r: LogRecord, message: string, t1: Millis, t2: Millis)
    requires Valid(r)
    ensures var s := r.startedAt.value;
      var failedThenDone := MarkedCompleted(MarkedFailed(r, message, t1), t2);
      var doneThenFailed := MarkedFailed(MarkedCompleted(r, t1), message, t2);
      && failedThenDone.status == Completed && failedThenDone.completedAt == Some(t2)
      && failedThenDone.elapsedMs == Some(ElapsedMs(s, t2))
      && failedThenDone.errorMessage == Some(message)
      && doneThenFailed.status == Failed && doneThenFailed.completedAt == Some(t2)
      && doneThenFailed.elapsedMs == Some(ElapsedMs(s, t2))
  {
  }

  /** `mark_failed` is the only operation that writes the error message. */
  lemma OnlyFailureWritesError(r: LogRecord, now: Millis, processed: nat, total: nat, tag: string)
    ensures MarkedInProgress(r, now).errorMessage == r.errorMessage
    ensures MarkedCompleted(r, now).errorMessage == r.errorMessage
    ensures ProgressUpdated(r, processed, total, now).errorMessage == r.errorMessage
    ensures Tagged(r, tag).errorMessage == r.errorMessage
  {
  }

  /** The percentage never divides by zero and scales back to the processed count. */
  lemma PercentageScales(processed: nat, total: nat)
    ensures Percentage(processed, total) * Max(total, 1) as real == processed as real * 100.0
    ensures Percentage(5, 10) == 50.0
    ensures Percentage(0, 0) == 0.0
    ensures total > 0 && processed == total ==> Percentage(processed, total) == 100.0
  {
    if total > 0 && processed == total {
      assert processed as real / total as real == 1.0;
    }
  }

  /**
   * Throughput divides by whole elapsed seconds, at least one: anything under two seconds
   * reports the processed count itself, however fast.
   */
  lemma RateHasOneSecondFloor(processed: nat, elapsedMs: int)
    ensures elapsedMs < 2000 ==> Rate(processed, elapsedMs) == processed as real
    ensures elapsedMs >= 1000 ==> Rate(processed, elapsedMs) * (elapsedMs / 1000) as real == processed as real
  {
  }

  class LogStore {
    var id: string
    var parentId: Option<string>
    var operation: string
    var operationType: string
    var status: LogStatus
    var errorMessage: Option<string>
    var createdAt: Millis
    var startedAt: Option<Millis>
    var completedAt: Option<Millis>
    var elapsedMs: Option<nat>
    var totalItems: Option<nat>
    var processedItems: Option<nat>
    var progressPercentage: Option<real>
    var itemsPerSecond: Option<real>
    var memoryUsageMb: Option<real>
    var sourceUri: Option<string>
    var destinationUri: Option<string>
    var metadata: Value
    var tags: seq<string>
    var hostname: Option<string>
    var processId: Option<u32>

    /** The record's current fields as one value. */
    ghost function View(): LogRecord
      reads this
    {
      LogRecord(id, parentId, operation, operationType, status, errorMessage, createdAt,
                startedAt, completedAt, elapsedMs, totalItems, processedItems,
                progressPercentage, itemsPerSecond, memoryUsageMb, sourceUri, destinationUri,
                metadata, tags, hostname, processId)
    }

    ghost predicate Invariant()
      reads this
    {
      Valid(View())
    }

    /** `LogStore::new`, with `id`, `now`, the `HOSTNAME` variable and the process id supplied. */
    constructor (operation: string, operationType: string, id: string, now: Millis, startNow: Millis,
                 hostVar: Option<string>, pid: u32)
        ensures View() == Created(operation, operationType, id, now, startNow, hostVar, pid)
      ensures Invariant()
    {
      this.id := id;
      this.parentId := None;
      this.operation := operation;
      this.operationType := operationType;
      this.status := Started;
      this.errorMessage := None;
      this.createdAt := now;
      this.startedAt := Some(startNow);
      this.completedAt := None;
      this.elapsedMs := None;
      this.totalItems := None;
      this.processedItems := None;
      this.progressPercentage := None;
      this.itemsPerSecond := None;
      this.memoryUsageMb := None;
      this.sourceUri := None;
      this.destinationUri := None;
      this.metadata := Null;
      this.tags := [];
      this.hostname := Some(hostVar.GetOr(""));
      this.processId := Some(pid);
    }

    method MarkInProgress(now: Millis)
      modifies this
      ensures View() == MarkedInProgress(old(View()), now)
      ensures old(Invariant()) ==> Invariant()
    {
      status := InProgress;
      startedAt := Some(now);
      if old(Invariant()) {
        InProgressKeepsValid(old(View()), now);
      }
    }

    method MarkCompleted(now: Millis)
      modifies this
      ensures View() == MarkedCompleted(old(View()), now)
      ensures old(Invariant()) ==> Invariant()
    {
      status := Completed;
      completedAt := Some(now);
      assert View() == old(View()).(status := Completed, completedAt := Some(now));
      CalculateElapsedTime();
      if old(Invariant()) {
        CompletedKeepsValid(old(View()), now);
      }
    }

    method MarkFailed(error: string, now: Millis)
      modifies this
      ensures View() == MarkedFailed(old(View()), error, now)
      ensures old(Invariant()) ==> Invariant()
    {
      status := Failed;
      errorMessage := Some(error);
      completedAt := Some(now);
      assert View() == old(View()).(status := Failed, errorMessage := Some(error), completedAt := Some(now));
      CalculateElapsedTime();
      if old(Invariant()) {
        FailedKeepsValid(old(View()), error, now);
      }
    }

    method UpdateProgress(processed: nat, total: nat, now: Millis)
      modifies this
      ensures View() == ProgressUpdated(old(View()), processed, total, now)
      ensures old(Invariant()) ==> Invariant()
    {
      if Invariant() {
        ProgressKeepsValid(View(), processed, total, now);
      }
      SetCounts(processed, total, Percentage(processed, total));
      if startedAt.Some? {
        itemsPerSecond := Some(Rate(processed, now - startedAt.value));
      }
    }

    /** The three progress fields written together. */
    method SetCounts(processed: nat, total: nat, percentage: real)
      modifies this`processedItems, this`totalItems, this`progressPercentage
      ensures View() == old(View()).(processedItems := Some(processed), totalItems := Some(total),
                                     progressPercentage := Some(percentage))
    {
      processedItems := Some(processed);
      totalItems := Some(total);
      progressPercentage := Some(percentage);
    }

    /** Recompute the elapsed time when both timestamps are present. */
    method CalculateElapsedTime()
      modifies this`elapsedMs
      ensures View() == WithElapsed(old(View()))
    {
      if startedAt.Some? && completedAt.Some? {
        elapsedMs := Some(ElapsedMs(startedAt.value, completedAt.value));
      }
    }

    method AddTag(tag: string)
      modifies this
      ensures View() == Tagged(old(View()), tag)
      ensures old(Invariant()) ==> Invariant()
    {
      tags := tags + [tag];
      if old(Invariant()) {
        TaggedKeepsValid(old(View()), tag);
      }
    }

    method SetMetadata(metadata: Value)
      modifies this
      ensures View() == old(View()).(metadata := metadata)
      ensures old(Invariant()) ==> Invariant()
    {
      this.metadata := metadata;
    }

    method SetSourceDestination(source: Option<string>, destination: Option<string>)
      modifies this
      ensures View() == old(View()).(sourceUri := source, destinationUri := destination)
      ensures old(Invariant()) ==> Invariant()
    {
      sourceUri := source;
      destinationUri := destination;
    }
  }
}

=== FILE: rest_extractor.dfy ===
/**
 * The REST adapter: a request template built fluently (`new`, the `with_*` builders,
 * `with_method`, `url`) and the retrieval members of the extraction contract, whose HTTP
 * exchange is an input. The HTTP client handle itself is not part of the model.
 */
module Rest {
  import opened Wrappers
  import opened Strings
  import opened JsonValues
  import Extract

  type byte = x: int | 0 <= x < 256

  /** HTTP methods as reqwest parses them: the standard nine and any other valid token. */
  datatype Method = GET | POST | PUT | DELETE | HEAD | OPTIONS | CONNECT | PATCH | TRACE
                  | Extension(name: string)

  /** A character allowed in an HTTP token (the `tchar` rule of RFC 7230, section 3.2.6). */
  predicate IsTokenChar(c: char) {
    ('a' <= c <= 'z') || ('A' <= c <= 'Z') || ('0' <= c <= '9')
    || c in {'!', '#', '$', '%', '&', '\'', '*', '+', '-', '.', '^', '_', '`', '|', '~'}
  }

  /** `Method::as_str`: the standard name, or the extension's own token. */
  function MethodName(m: Method): string {
    match m
    case GET => "GET"
    case POST => "POST"
    case PUT => "PUT"
    case DELETE => "DELETE"
    case HEAD => "HEAD"
    case OPTIONS => "OPTIONS"
    case CONNECT => "CONNECT"
    case PATCH => "PATCH"
    case TRACE => "TRACE"
    case Extension(name) => name
  }

  /** The nine names that `str::parse::<Method>` maps to a standard method. */
  const StandardNames: set<string> :=
    {"GET", "POST", "PUT", "DELETE", "HEAD", "OPTIONS", "CONNECT", "PATCH", "TRACE"}

  /**
   * `str::parse::<Method>`: standard names match case-sensitively; other tokens are extensions.
   * A parsed method's name is the text it was parsed from.
   */
  function ParseMethod(s: string): (r: Option<Method>)
    ensures r.None? <==> s == [] || exists i :: 0 <= i < |s| && !IsTokenChar(s[i])
    ensures r.Some? ==> MethodName(r.value) == s
    ensures r.Some? ==> (r.value.Extension? <==> s !in StandardNames)
  {
    if s == "GET" then Some(GET) else if s == "POST" then Some(POST)
    else if s == "PUT" then Some(PUT) else if s == "DELETE" then Some(DELETE)
    else if s == "HEAD" then Some(HEAD) else if s == "OPTIONS" then Some(OPTIONS)
    else if s == "CONNECT" then Some(CONNECT) else if s == "PATCH" then Some(PATCH)
    else if s == "TRACE" then Some(TRACE)
    else if s != [] && forall i :: 0 <= i < |s| ==> IsTokenChar(s[i]) then Some(Extension(s))
    else None
  }

  /** A header value: literal text, or basic-auth credentials (their base64 form is the library's). */
  datatype HeaderValue = Plain(text: string) | BasicCredentials(user: string, password: string)

  /** A header as the request holds it: the name in lower case, and its value. */
  datatype Header = Header(name: string, value: HeaderValue)

  /**
   * A request body: bytes given by the caller, the text of a serialized JSON value, or a
   * stream (which cannot be cloned, so a request carrying one cannot be built twice).
   */
  datatype Body = Buffered(data: seq<byte>) | JsonText(text: string) | Streamed

  /** The target: the joined address and the query pairs added after it. */
  datatype Url = Url(address: string, query: seq<(string, string)>)

  datatype Request = Request(verb: Method, url: Url, headers: seq<Header>, body: Option<Body>)

  datatype RestExtractor = RestExtractor(request: Request)

  /**
   * `try_clone` succeeds unless the body is a stream. Templates are taken to hold a URL and
   * headers that parse; a builder that failed to parse one cannot be cloned either.
   */
  predicate Clonable(e: RestExtractor) {
    e.request.body != Some(Streamed)
  }

  /** The base and the endpoint with exactly one `/` between them. */
  function JoinUrl(base: string, endpoint: string): string {
    TrimEndMatches(base, '/') + "/" + TrimStartMatches(endpoint, '/')
  }

  function Slashes(n: nat): (s: string)
    ensures |s| == n && forall i :: 0 <= i < n ==> s[i] == '/'
  {
    if n == 0 then "" else "/" + Slashes(n - 1)
  }

  lemma {:induction false} TrimEndOfSlashes(base: string, n: nat)
    requires base == [] || base[|base| - 1] != '/'
    ensures TrimEndMatches(base + Slashes(n), '/') == base
  {
    if n > 0 {
      var s := base + Slashes(n);
      assert s[|s| - 1] == '/';
      assert s[..|s| - 1] == base + Slashes(n - 1);
      TrimEndOfSlashes(base, n - 1);
    } else {
      assert base + Slashes(n) == base;
    }
  }

  lemma {:induction false} TrimStartOfSlashes(endpoint: string, n: nat)
    requires endpoint == [] || endpoint[0] != '/'
    ensures TrimStartMatches(Slashes(n) + endpoint, '/') == endpoint
  {
    if n > 0 {
      var s := Slashes(n) + endpoint;
      var rest := Slashes(n - 1) + endpoint;
      assert s == "/" + rest;
      assert s[1..] == rest;
      assert TrimStartMatches(s, '/') == TrimStartMatches(rest, '/');
      TrimStartOfSlashes(endpoint, n - 1);
    } else {
      assert Slashes(n) + endpoint == endpoint;
    }
  }

  /**
   * However many slashes end the base and start the endpoint, the joined URL has exactly
   * one slash between them.
   */
  lemma JoinUrlOneSeparator(base: string, endpoint: string, i: nat, j: nat)
    requires base == [] || base[|base| - 1] != '/'
    requires endpoint == [] || endpoint[0] != '/'
    ensures JoinUrl(base + Slashes(i), Slashes(j) + endpoint) == base + "/" + endpoint
  {
    TrimEndOfSlashes(base, i);
    TrimStartOfSlashes(endpoint, j);
  }

  /** `RestExtractor::new`: a GET to the joined URL, with no query, no headers and no body. */
  function New(base: string, endpoint: string): (e: RestExtractor)
    ensures e.request.verb == GET
    ensures e.request.url == Url(JoinUrl(base, endpoint), [])
    ensures e.request.headers == [] && e.request.body == None
  {
    RestExtractor(Request(GET, Url(JoinUrl(base, endpoint), []), [], None))
  }

  /** reqwest's `header`: the pair is appended; an earlier header of the same name stays. */
  function AddHeader(e: RestExtractor, h: Header): (r: RestExtractor)
    ensures r.request.headers == e.request.headers + [h]
    ensures r.request.(headers := e.request.headers) == e.request
  {
    RestExtractor(e.request.(headers := e.request.headers + [h]))
  }

  /** `with_header`: one header appended, its name lower-cased as `HeaderName` stores it. */
  function WithHeader(e: RestExtractor, key: string, value: string): (r: RestExtractor)
    ensures r.request.headers == e.request.headers + [Header(AsciiLower(key), Plain(value))]
    ensures r.request.(headers := e.request.headers) == e.request
  {
    AddHeader(e, Header(AsciiLower(key), Plain(value)))
  }

  /** `with_basic_auth`: an `authorization` header carrying the credentials is appended. */
  function WithBasicAuth(e: RestExtractor, user: string, password: string): (r: RestExtractor)
    ensures r.request.headers == e.request.headers + [Header("authorization", BasicCredentials(user, password))]
    ensures r.request.(headers := e.request.headers) == e.request
  {
    AddHeader(e, Header("authorization", BasicCredentials(user, password)))
  }

  /** `with_auth_token`: an `authorization: Bearer <token>` header is appended. */
  function WithAuthToken(e: RestExtractor, token: string): (r: RestExtractor)
    ensures r.request.headers == e.request.headers + [Header("authorization", Plain("Bearer " + token))]
    ensures r.request.(headers := e.request.headers) == e.request
  {
    AddHeader(e, Header("authorization", Plain("Bearer " + token)))
  }

  function WithQueryParam(e: RestExtractor, pairs: seq<(string, string)>): (r: RestExtractor)
    ensures r.request.url.query == e.request.url.query + pairs
    ensures r.request.url.address == e.request.url.address
    ensures r.request.(url := e.request.url) == e.request
  {
    var u := e.request.url;
    RestExtractor(e.request.(url := u.(query := u.query + pairs)))
  }

  function WithBody(e: RestExtractor, body: Body): (r: RestExtractor)
    ensures r.request == e.request.(body := Some(body))
  {
    RestExtractor(e.request.(body := Some(body)))
  }

  predicate HasHeader(e: RestExtractor, name: string) {
    exists i :: 0 <= i < |e.request.headers| && e.request.headers[i].name == name
  }

  /**
   * `with_json_body`: the body becomes the value's JSON text, and a `content-type` header
   * is added only when none is set yet.
   */
  function WithJsonBody(e: RestExtractor, v: Value): (r: RestExtractor)
    ensures r.request.body == Some(JsonText(Render(v)))
    ensures HasHeader(e, "content-type") ==> r.request.headers == e.request.headers
    ensures !HasHeader(e, "content-type") ==>
              r.request.headers == e.request.headers + [Header("content-type", Plain("application/json"))]
    ensures r.request.verb == e.request.verb && r.request.url == e.request.url
  {
    var withType :=
      if HasHeader(e, "content-type") then e
      else AddHeader(e, Header("content-type", Plain("application/json")));
    RestExtractor(withType.request.(body := Some(JsonText(Render(v)))))
  }

  /** The query pairs as `k=v` joined by `&` (the percent-encoding is the URL library's). */
  function QueryText(pairs: seq<(string, string)>): string {
    if pairs == [] then ""
    else if |pairs| == 1 then pairs[0].0 + "=" + pairs[0].1
    else pairs[0].0 + "=" + pairs[0].1 + "&" + QueryText(pairs[1..])
  }

  function UrlText(u: Url): string {
    if u.query == [] then u.address else u.address + "?" + QueryText(u.query)
  }

  /** `url()`: the built request's URL; it starts with the joined address whatever the query. */
  function UrlOf(e: RestExtractor): (r: string)
    requires Clonable(e)
    ensures |e.request.url.address| <= |r| && r[..|e.request.url.address|] == e.request.url.address
    ensures e.request.url.query == [] ==> r == e.request.url.address
  {
    UrlText(e.request.url)
  }

  /**
   * `with_method`: the request is rebuilt for the parsed method (GET when the text does not
   * parse) on the built URL, and the built request's headers are applied to it again one by
   * one. The body is not carried over. The built URL still holds the query pairs, so they
   * survive, although the source's doc comment warns that they may not.
   */
  method WithMethod(e: RestExtractor, name: string) returns (r: RestExtractor)
    requires Clonable(e)
    ensures r.request.verb == (if ParseMethod(name).Some? then ParseMethod(name).value else GET)
    ensures r.request.url == e.request.url
    ensures r.request.headers == e.request.headers
    ensures r.request.body == None
  {
    var parsed := ParseMethod(name).GetOr(GET);
    var built := e.request;
    var headers := built.headers;
    r := RestExtractor(Request(parsed, built.url, [], None));
    var i := 0;
    while i < |headers|
      invariant 0 <= i <= |headers|
      invariant r.request == Request(parsed, built.url, headers[..i], None)
    {
      r := AddHeader(r, headers[i]);
      assert headers[..i + 1] == headers[..i] + [headers[i]];
      i := i + 1;
    }
  }

  // ---------------------------------------------------------------------------------------
  // Retrieval. Every retrieval clones the template, builds it and executes it; the outcome of
  // that execution is the `Exchange` input.

  /** A response status: its code and the canonical reason phrase the library knows for it. */
  datatype Status = Status(code: nat, reason: Option<string>)

  /**
   * The outcome of executing one request and reading its body. `ping` never reads the body,
   * so for `Ping` a `TransportFailure` means that `execute` itself failed.
   */
  datatype Exchange =
    | TransportFailure(reason: string)
    | Response(status: Status, text: string, bytes: seq<byte>)

  /** `StatusCode`'s display form, e.g. "500 Internal Server Error". */
  function StatusText(s: Status): string {
    NatToDecimal(s.code) + " " + s.reason.GetOr("<unknown status code>")
  }

  const SNIPPET_LIMIT: nat := 1024

  /** The first 1024 characters of the body (all of it when shorter). */
  function Snippet(text: string): (r: string)
    ensures |r| == if |text| < SNIPPET_LIMIT then |text| else SNIPPET_LIMIT
    ensures r == text[..|r|]
  {
    if |text| <= SNIPPET_LIMIT then text else text[..SNIPPET_LIMIT]
  }

  function EmptyBodyMessage(s: Status): string {
    "Empty response body (status: " + StatusText(s) + ")"
  }

  function ParseFailureMessage(parseError: string, text: string): string {
    "Failed to parse JSON: " + parseError + ". Response snippet: " + Snippet(text)
  }

  /** Clone and build the template, or fail with `RequestCloneFailed`. */
  function Prepare(e: RestExtractor): (r: Result<Request, Extract.ExtractorError>)
    ensures r.Ok? <==> Clonable(e)
    ensures r.Err? ==> r.error == Extract.RequestCloneFailed
    ensures r.Ok? ==> r.value == e.request
  {
    if Clonable(e) then Ok(e.request) else Err(Extract.RequestCloneFailed)
  }

  /** `ping`: any HTTP status counts as reachable; only cloning or the transport can fail. */
  function Ping(e: RestExtractor, exchange: Exchange): (r: Extract.Outcome)
    ensures r.Ok? <==> Clonable(e) && exchange.Response?
    ensures !Clonable(e) ==> r == Err(Extract.RequestCloneFailed)
    ensures Clonable(e) && exchange.TransportFailure? ==>
              r == Err(Extract.HttpRequestError(exchange.reason))
  {
    match Prepare(e)
    case Err(err) => Err(err)
    case Ok(_) =>
      match exchange
      case TransportFailure(reason) => Err(Extract.HttpRequestError(reason))
      case Response(status, _, _) => Ok(())
  }

  /**
   * `extract_json`, with `parse` standing for serde_json's decoding into the caller's type:
   * a blank body fails with a message naming the status; a body that does not decode fails
   * with the decoder's message and a bounded snippet of the body; the status itself is never
   * checked, so an error status with a decodable body succeeds.
   */
  function ExtractJson<T>(e: RestExtractor, exchange: Exchange, parse: string -> Result<T, string>)
    : (r: Result<T, Extract.ExtractorError>)
    ensures !Clonable(e) ==> r == Err(Extract.RequestCloneFailed)
    ensures Clonable(e) && exchange.TransportFailure? ==>
              r == Err(Extract.HttpRequestError(exchange.reason))
    ensures Clonable(e) && exchange.Response? && IsBlank(exchange.text) ==>
              r == Err(Extract.ExtractOpsError(EmptyBodyMessage(exchange.status)))
    ensures Clonable(e) && exchange.Response? && !IsBlank(exchange.text) ==>
              r == match parse(exchange.text)
                   case Ok(v) => Ok(v)
                   case Err(m) => Err(Extract.ExtractOpsError(ParseFailureMessage(m, exchange.text)))
  {
    match Prepare(e)
    case Err(err) => Err(err)
    case Ok(_) =>
      match exchange
      case TransportFailure(reason) => Err(Extract.HttpRequestError(reason))
      case Response(status, text, _) =>
        TrimEmptyIffBlank(text);
        if Trim(text) == [] then Err(Extract.ExtractOpsError(EmptyBodyMessage(status)))
        else
          match parse(text)
          case Ok(v) => Ok(v)
          case Err(m) => Err(Extract.ExtractOpsError(ParseFailureMessage(m, text)))
  }

  /** `extract_text`: the decoded body as it came, with no check on status or content. */
  function ExtractText(e: RestExtractor, exchange: Exchange): (r: Result<string, Extract.ExtractorError>)
    ensures r.Ok? <==> Clonable(e) && exchange.Response?
    ensures !Clonable(e) ==> r == Err(Extract.RequestCloneFailed)
    ensures Clonable(e) && exchange.TransportFailure? ==>
              r == Err(Extract.HttpRequestError(exchange.reason))
    ensures r.Ok? ==> r.value == exchange.text
  {
    match Prepare(e)
    case Err(err) => Err(err)
    case Ok(_) =>
      match exchange
      case TransportFailure(reason) => Err(Extract.HttpRequestError(reason))
      case Response(_, text, _) => Ok(text)
  }

  /** `extract_bytes`: the body's bytes as they came. */
  function ExtractBytes(e: RestExtractor, exchange: Exchange): (r: Result<seq<byte>, Extract.ExtractorError>)
    ensures r.Ok? <==> Clonable(e) && exchange.Response?
    ensures !Clonable(e) ==> r == Err(Extract.RequestCloneFailed)
    ensures Clonable(e) && exchange.TransportFailure? ==>
              r == Err(Extract.HttpRequestError(exchange.reason))
    ensures r.Ok? ==> r.value == exchange.bytes
  {
    match Prepare(e)
    case Err(err) => Err(err)
    case Ok(_) =>
      match exchange
      case TransportFailure(reason) => Err(Extract.HttpRequestError(reason))
      case Response(_, _, bytes) => Ok(bytes)
  }

  /**
   * `extract_raw`: the same exchange as `extract_bytes`; only the container of the bytes
   * differs (`Bytes` rather than a copied `Vec`), which the model does not distinguish.
   */
  function ExtractRaw(e: RestExtractor, exchange: Exchange): (r: Result<seq<byte>, Extract.ExtractorError>)
    ensures r == ExtractBytes(e, exchange)
    ensures r.Ok? <==> Clonable(e) && exchange.Response?
    ensures r.Ok? ==> r.value == exchange.bytes
    ensures !Clonable(e) ==> r == Err(Extract.RequestCloneFailed)
  {
    ExtractBytes(e, exchange)
  }

  function Close(): (r: Extract.Outcome)
    ensures r.Ok?
  {
    Ok(())
  }

  function SourceName(e: RestExtractor): (r: Result<string, Extract.ExtractorError>)
    ensures r == Ok("RestExtractor")
  {
    Ok("RestExtractor")
  }

  function SupportsIncremental(e: RestExtractor): (r: bool)
    ensures !r
  {
    false
  }

  function CurrentCheckpoint(e: RestExtractor): (r: Option<Extract.Checkpoint>)
    ensures r.None?
  {
    None
  }

  /** The adapter's own `set_checkpoint`: always refused, the template untouched. */
  function SetCheckpoint(e: RestExtractor, chk: Extract.Checkpoint): (r: (RestExtractor, Extract.Outcome))
    ensures r.0 == e
    ensures r.1 == Err(Extract.ExtractOpsError(Extract.NOT_INCREMENTAL))
  {
    (e, Err(Extract.ExtractOpsError(Extract.NOT_INCREMENTAL)))
  }

  /** The REST adapter as the contract sees it: incremental support overridden to false. */
  function AsAdapter<T>(e: RestExtractor, exchange: Exchange, parse: string -> Result<T, string>)
    : Extract.Adapter<T>
  {
    Extract.Adapter(Some(false), Some(None), None, ExtractJson(e, exchange, parse))
  }

  /**
   * The REST adapter's overrides agree with the contract's defaults: through the contract it
   * is never incremental, refuses every checkpoint with the same error, and its `extract` is
   * its `extract_json`.
   */
  lemma RestAgreesWithDefaults<T>(e: RestExtractor, exchange: Exchange,
                                 parse: string -> Result<T, string>, chk: Extract.Checkpoint)
    ensures var a := AsAdapter(e, exchange, parse);
      && Extract.SupportsIncremental(a) == SupportsIncremental(e)
      && Extract.CurrentCheckpoint(a) == CurrentCheckpoint(e)
      && Extract.SetCheckpoint(a, chk).1 == SetCheckpoint(e, chk).1
      && Extract.Extract(a) == ExtractJson(e, exchange, parse)
      && Extract.Schema(a) == None
  {
  }

  /**
   * `extract_json` never looks at the status: with a non-blank body, a server error and a
   * success give the same result (bodies with other bytes included).
   */
  lemma StatusIgnoredForNonBlankBody<T>(e: RestExtractor, parse: string -> Result<T, string>,
                                        s1: Status, s2: Status, text: string, b1: seq<byte>, b2: seq<byte>)
    requires !IsBlank(text)
    ensures ExtractJson(e, Response(s1, text, b1), parse) == ExtractJson(e, Response(s2, text, b2), parse)
  {
  }

  /** The empty-body error names the numeric status code. */
  lemma EmptyBodyMessageNamesStatus(s: Status)
    ensures Contains(EmptyBodyMessage(s), NatToDecimal(s.code))
  {
    var m := EmptyBodyMessage(s);
    var prefix := "Empty response body (status: ";
    var digits := NatToDecimal(s.code);
    assert m[|prefix|..|prefix| + |digits|] == digits;
    assert OccursAt(m, digits, |prefix|);
  }

  /**
   * The parse-failure message carries the body's first characters, the whole body when it is
   * at most 1024 characters long, and never more than 1024 of them.
   */
  lemma ParseFailureMessageBounded(parseError: string, text: string)
    ensures var m := ParseFailureMessage(parseError, text);
      && Contains(m, Snippet(text))
      && |m| <= |"Failed to parse JSON: "| + |parseError| + |". Response snippet: "| + SNIPPET_LIMIT
      && (|text| <= SNIPPET_LIMIT ==> Contains(m, text))
  {
    var m := ParseFailureMessage(parseError, text);
    var head := "Failed to parse JSON: " + parseError + ". Response snippet: ";
    assert m[|head|..|head| + |Snippet(text)|] == Snippet(text);
    assert OccursAt(m, Snippet(text), |head|);
  }

  /** The documented example of `new` with a slash on each side of the join. */
  lemma NewExampleWithSlashes()
    ensures UrlOf(New("https://api.example.com/", "/data")) == "https://api.example.com/data"
  {
    var base, endpoint := "https://api.example.com", "data";
    assert Slashes(1) == "/";
    assert base + Slashes(1) == "https://api.example.com/";
    assert Slashes(1) + endpoint == "/data";
    JoinUrlOneSeparator(base, endpoint, 1, 1);
  }

  /** The documented example of `new` with no slash on either side of the join. */
  lemma NewExampleBare()
    ensures UrlOf(New("https://api.example.com", "data")) == "https://api.example.com/data"
  {
    var base, endpoint := "https://api.example.com", "data";
    assert Slashes(0) == "";
    assert base + Slashes(0) == base && Slashes(0) + endpoint == endpoint;
    JoinUrlOneSeparator(base, endpoint, 0, 0);
  }

  /** `with_method` on a template without query pairs leaves `url()` as it was. */
  method WithMethodExample() returns (url: string)
    ensures url == "https://api.example.com/data"
  {
    var e := New("https://api.example.com", "data");
    NewExampleBare();
    var posted := WithMethod(e, "POST");
    url := UrlOf(posted);
  }

  /** Every standard method's name parses back to that method. */
  lemma ParseMethodName(m: Method)
    requires !m.Extension?
    ensures MethodName(m) in StandardNames
    ensures ParseMethod(MethodName(m)) == Some(m)
  {
  }

  /**
   * `new(base, "api/data").with_method("POST").with_json_body(v)`: a POST to the joined
   * address whose body is the JSON text, with the JSON content type.
   */
  method PostJsonExample(base: string, v: Value) returns (r: RestExtractor)
    ensures r.request.verb == POST
    ensures r.request.url == Url(JoinUrl(base, "api/data"), [])
    ensures r.request.headers == [Header("content-type", Plain("application/json"))]
    ensures r.request.body == Some(JsonText(Render(v)))
  {
    var e := New(base, "api/data");
    var posted := WithMethod(e, "POST");
    r := WithJsonBody(posted, v);
  }

  /** The builders that only add headers or a body leave `url()` as it was. */
  lemma HeaderBuildersKeepUrl(e: RestExtractor, key: string, value: string, v: Value)
    requires Clonable(e)
    ensures UrlOf(WithHeader(e, key, value)) == UrlOf(e)
    ensures UrlOf(WithAuthToken(e, value)) == UrlOf(e)
    ensures UrlOf(WithBasicAuth(e, key, value)) == UrlOf(e)
    ensures UrlOf(WithJsonBody(e, v)) == UrlOf(e)
  {
  }
}

=== FILE: strings.dfy ===
/**
 * Character and string helpers from Rust's standard library that the source relies on:
 * decimal rendering and parsing of integers (`to_string`, `str::parse`), trimming
 * (`trim`, `trim_start_matches`, `trim_end_matches`) and lower-casing.
 */
module Strings {
  import opened Wrappers
  import opened Ints

  predicate IsDigit(c: char) { '0' <= c <= '9' }

  predicate AllDigits(s: string) { forall i :: 0 <= i < |s| ==> IsDigit(s[i]) }

  function DigitChar(d: nat): (c: char)
    requires d < 10
    ensures IsDigit(c) && c as int - '0' as int == d
  {
    ('0' as int + d) as char
  }

  /** Decimal text of n, most significant digit first, without leading zeros. */
  function NatToDecimal(n: nat): (s: string)
    ensures |s| >= 1 && AllDigits(s)
    ensures |s| > 1 ==> s[0] != '0'
    decreases n
  {
    if n < 10 then [DigitChar(n)] else NatToDecimal(n / 10) + [DigitChar(n % 10)]
  }

  /** Rust's `Display` for a signed integer: a minus sign for negatives, then the digits. */
  function IntToDecimal(i: int): (s: string)
    ensures |s| >= 1
    ensures s[0] == '-' <==> i < 0
  {
    if i < 0 then "-" + NatToDecimal(-i) else NatToDecimal(i)
  }

  /** The number a string of decimal digits denotes. */
  function DecimalValue(s: string): nat
    requires AllDigits(s)
  {
    if s == [] then 0 else DecimalValue(s[..|s| - 1]) * 10 + (s[|s| - 1] as int - '0' as int)
  }

  lemma {:induction false} DecimalRoundTrip(n: nat)
    ensures DecimalValue(NatToDecimal(n)) == n
    decreases n
  {
    if n >= 10 {
      var s := NatToDecimal(n);
      assert s[..|s| - 1] == NatToDecimal(n / 10);
      DecimalRoundTrip(n / 10);
    }
  }

  /** A non-empty run of decimal digits, read as a number. */
  function Digits(s: string): Option<nat> {
    if s != [] && AllDigits(s) then Some(DecimalValue(s)) else None
  }

  /**
   * Rust's `s.parse::<i64>()`: an optional sign, then at least one ASCII digit and nothing
   * else; a value outside the i64 range is an overflow error.
   */
  function ParseI64(s: string): (r: Option<i64>)
    ensures r.Some? ==> |s| >= 1 && (IsDigit(s[0]) || s[0] == '+' || s[0] == '-')
  {
    if s == [] || ((s[0] == '+' || s[0] == '-') && |s| == 1) then None
    else if s[0] == '-' then
      match Digits(s[1..])
      case Some(m) => if m <= -I64_MIN then var v: i64 := -(m as int); Some(v) else None
      case None => None
    else
      match Digits(if s[0] == '+' then s[1..] else s)
      case Some(m) => if m <= I64_MAX then Some(m) else None
      case None => None
  }

  /**
   * Rust's `s.parse::<u64>()`: an optional `+`, then at least one ASCII digit; a leading
   * `-` is an invalid digit for an unsigned type.
   */
  function ParseU64(s: string): (r: Option<u64>)
    ensures r.Some? ==> |s| >= 1 && s[0] != '-'
  {
    if s == [] || ((s[0] == '+' || s[0] == '-') && |s| == 1) then None
    else
      match Digits(if s[0] == '+' then s[1..] else s)
      case Some(m) => if m <= U64_MAX then Some(m) else None
      case None => None
  }

  /** `to_string` followed by `parse::<u64>` gives the number back. */
  lemma U64RoundTrip(u: u64)
    ensures ParseU64(NatToDecimal(u)) == Some(u)
  {
    DecimalRoundTrip(u);
  }

  /** `to_string` followed by `parse::<i64>` gives the number back, negatives included. */
  lemma I64RoundTrip(i: i64)
    ensures ParseI64(IntToDecimal(i)) == Some(i)
  {
    if i < 0 {
      var m: nat := -(i as int);
      var t := IntToDecimal(i);
      assert t == "-" + NatToDecimal(m);
      assert t[1..] == NatToDecimal(m);
      DecimalRoundTrip(m);
      assert Digits(t[1..]) == Some(m);
    } else {
      DecimalRoundTrip(i);
      assert Digits(NatToDecimal(i)) == Some(i as nat);
    }
  }

  /** The digits of `Display` for an integer: canonical decimal text of its magnitude. */
  lemma IntToDecimalDigits(i: int)
    ensures var t := IntToDecimal(i);
      var d := if i < 0 then t[1..] else t;
      && d != [] && AllDigits(d) && (|d| > 1 ==> d[0] != '0')
      && DecimalValue(d) as int == (if i < 0 then -i else i)
  {
    if i < 0 {
      assert IntToDecimal(i)[1..] == NatToDecimal(-i);
      DecimalRoundTrip(-i);
    } else {
      DecimalRoundTrip(i);
    }
  }

  /** The part of a numeral after an optional leading `+` or `-`. */
  function Unsigned(s: string): string {
    if s != [] && (s[0] == '+' || s[0] == '-') then s[1..] else s
  }

  /**
   * `parse::<i64>` accepts exactly an optional sign followed by one or more ASCII digits whose
   * signed value lies in the i64 range, and gives that value.
   */
  lemma ParseI64Exact(s: string)
    ensures var d := Unsigned(s);
      var negative := s != [] && s[0] == '-';
      ParseI64(s).Some? <==>
        d != [] && AllDigits(d) && (if negative then DecimalValue(d) <= -I64_MIN else DecimalValue(d) <= I64_MAX)
    ensures var d := Unsigned(s);
      ParseI64(s).Some? ==>
        AllDigits(d) && ParseI64(s).value == if s[0] == '-' then -(DecimalValue(d) as int) else DecimalValue(d)
  {
  }

  /**
   * `parse::<u64>` accepts exactly an optional `+` followed by one or more ASCII digits whose
   * value fits a u64, and gives that value; a leading `-` is always rejected.
   */
  lemma ParseU64Exact(s: string)
    ensures var d := if s != [] && s[0] == '+' then s[1..] else s;
      ParseU64(s).Some? <==> d != [] && AllDigits(d) && DecimalValue(d) <= U64_MAX
    ensures var d := if s != [] && s[0] == '+' then s[1..] else s;
      ParseU64(s).Some? ==> AllDigits(d) && ParseU64(s).value == DecimalValue(d)
  {
  }

  /** `trim_end_matches(c)`: drop every trailing `c`. */
  function TrimEndMatches(s: string, c: char): (r: string)
    ensures |r| <= |s|
    ensures r == [] || r[|r| - 1] != c
    ensures forall i :: |r| <= i < |s| ==> s[i] == c
  {
    if s != [] && s[|s| - 1] == c then TrimEndMatches(s[..|s| - 1], c) else s
  }

  /** `trim_start_matches(c)`: drop every leading `c`. */
  function TrimStartMatches(s: string, c: char): (r: string)
    ensures |r| <= |s|
    ensures r == [] || r[0] != c
    ensures forall i :: 0 <= i < |s| - |r| ==> s[i] == c
  {
    if s != [] && s[0] == c then TrimStartMatches(s[1..], c) else s
  }

  /** What `trim_end_matches` keeps is a prefix of its input. */
  lemma {:induction false} TrimEndMatchesIsPrefix(s: string, c: char)
    ensures TrimEndMatches(s, c) == s[..|TrimEndMatches(s, c)|]
  {
    if s != [] && s[|s| - 1] == c {
      var init := s[..|s| - 1];
      TrimEndMatchesIsPrefix(init, c);
      assert init[..|TrimEndMatches(init, c)|] == s[..|TrimEndMatches(init, c)|];
    }
  }

  /** What `trim_start_matches` keeps is a suffix of its input. */
  lemma {:induction false} TrimStartMatchesIsSuffix(s: string, c: char)
    ensures TrimStartMatches(s, c) == s[|s| - |TrimStartMatches(s, c)|..]
  {
    if s != [] && s[0] == c {
      var tail := s[1..];
      TrimStartMatchesIsSuffix(tail, c);
      assert tail[|tail| - |TrimStartMatches(tail, c)|..] == s[|s| - |TrimStartMatches(tail, c)|..];
    }
  }

  /** Rust's `char::is_whitespace`: the Unicode White_Space characters. */
  predicate IsWhitespace(c: char) {
    ('\U{9}' <= c <= '\U{D}') || c == '\U{20}' || c == '\U{85}' || c == '\U{A0}'
    || c == '\U{1680}' || ('\U{2000}' <= c <= '\U{200A}') || c == '\U{2028}' || c == '\U{2029}'
    || c == '\U{202F}' || c == '\U{205F}' || c == '\U{3000}'
  }

  function TrimStart(s: string): (r: string)
    ensures |r| <= |s| && r == s[|s| - |r|..]
    ensures r == [] || !IsWhitespace(r[0])
    ensures forall i :: 0 <= i < |s| - |r| ==> IsWhitespace(s[i])
  {
    if s != [] && IsWhitespace(s[0]) then TrimStart(s[1..]) else s
  }

  function TrimEnd(s: string): (r: string)
    ensures |r| <= |s| && r == s[..|r|]
    ensures r == [] || !IsWhitespace(r[|r| - 1])
    ensures forall i :: |r| <= i < |s| ==> IsWhitespace(s[i])
  {
    if s != [] && IsWhitespace(s[|s| - 1]) then TrimEnd(s[..|s| - 1]) else s
  }

  /** Rust's `str::trim`: leading and trailing whitespace removed. */
  function Trim(s: string): string {
    TrimEnd(TrimStart(s))
  }

  predicate IsBlank(s: string) { forall i :: 0 <= i < |s| ==> IsWhitespace(s[i]) }

  /** `s.trim().is_empty()` holds exactly when every character of s is whitespace. */
  lemma TrimEmptyIffBlank(s: string)
    ensures Trim(s) == [] <==> IsBlank(s)
  {
    var t := TrimStart(s);
    if Trim(s) == [] {
      // the end-trim consumed all of t, whose first character would have stopped it
      assert t == [];
    }
  }

  function LowerChar(c: char): char {
    if 'A' <= c <= 'Z' then (c as int - 'A' as int + 'a' as int) as char else c
  }

  /** Lower-casing of ASCII letters; every other character is kept. */
  function AsciiLower(s: string): (r: string)
    ensures |r| == |s|
    ensures forall i :: 0 <= i < |s| ==> r[i] == LowerChar(s[i])
  {
    if s == [] then [] else [LowerChar(s[0])] + AsciiLower(s[1..])
  }

  /** Does `part` occur as a contiguous piece of `s`? */
  predicate Contains(s: string, part: string) {
    exists i :: 0 <= i <= |s| - |part| && OccursAt(s, part, i)
  }

  predicate OccursAt(s: string, part: string, i: nat)
    requires i + |part| <= |s|
  {
    s[i..i + |part|] == part
  }
}

=== FILE: wrappers.dfy ===
/** Option and Result, the two failure-carrying wrappers the rest of the model uses. */
module Wrappers {

  datatype Option<+T> = None | Some(value: T) {
    /** The wrapped value, or `default` when there is none (Rust's `unwrap_or`). */
    function GetOr(default: T): T {
      match this
      case Some(v) => v
      case None => default
    }
  }

  /** Rust's `Result<T, E>`: `Ok` carries the value, `Err` the error. */
  datatype Result<+T, +E> = Ok(value: T) | Err(error: E)
}
